=== FILE: README.md ===
# Neuro-Lite chat pipeline — a Dafny model

Neuro-Lite is a small offline technical-support chat server. Each chat turn:

1. classifies the user's message into one of four emotional states with a
   lexical scorer;
2. looks the message up in an SQLite FTS5 knowledge base;
3. builds a system prompt from a base prompt, a persona directive for the
   detected state, and a block listing the knowledge entries found;
4. stores the user message in a sliding-window conversation memory;
5. streams a language model's answer back as server-sent events;
6. when the stream completes, stores a post-processed copy of the answer in
   the memory. Post-processing strips the answer, adds an empathy sentence
   when one is missing, and spaces numbered list items.

A separate tool validates knowledge-base text before ingestion. It rejects
personal data, toxic keywords and duplicates.

The project has one module per source file, plus a module of string
operations they share:

| module | file | models |
|---|---|---|
| `Text` | `text.dfy` | the Python `str` operations the pipeline relies on: `strip`, `lower`, `split()`, `split(sep)`, `join`, substring `in` |
| `Memory` | `memory.dfy` | `ContextManager`: history, character budget, bridge summary, window rule |
| `Emotion` | `emotion.dfy` | `EmotionalAnalyzer`: pattern scores, winner selection, persona directives |
| `PostProcessing` | `postprocess.dfy` | `PostProcessor.process`: strip, empathy injection, list-item spacing |
| `Retrieval` | `retrieval.dfy` | `RAGEngine`: query sanitising, FTS query building, result shaping, insert |
| `ChatServer` | `chatserver.dfy` | one turn of the `/chat` endpoint |
| `Validation` | `validation.dfy` | `DataValidator.validate_text` and the block loop of `scan_file` |

Stateful objects are classes whose methods are proved against specification
functions:

- `ContextManager`, `EmotionalAnalyzer`, `RAGEngine` and `DataValidator`.
- `AddMessage` and `EnforceLimits` against `Enforced`.
- `Analyze` against `Classify`.
- `ScanContent` against `Scan`.
- The loops of the chat turn against `KnowledgeBlock`, `OverrideFirstSystem`,
  `Accumulated` and `TokenEvents`.

Foreign engines are parameters of the model:

- The regular-expression engine is a match-count function (`MatchCounter`),
  a `findall` function (`FindAll`) and a search predicate (`Searcher`).
- Python set iteration order is `Enumeration`.
- MD5 is `Hasher`.
- The SQLite/FTS5/bm25 store is `Matcher`.
- The language model is `Llm`.

Every statement about them is made for all such functions, with these
exceptions:

- `Memory.ChosenEntitiesSpec` assumes that `order` lists each entity of the
  set exactly once (its `requires Enumerates(order)`). Its last clause also
  assumes, as that clause's premise, that the finder returns only substrings of
  its input (`FindsSubstrings(findAll)`).
- `Emotion.ClassifyIgnoresCase` assumes that the engine counts the same
  matches of a flagged expression in a text and in its lower-cased form (its
  `requires FoldsCase(count)`).
- `Retrieval.ResultsFromStore` assumes that the store returns only stored
  rows (its `requires FromStore(matcher)`).
- The test scenarios state in their `requires` what the engine answers for
  their fixed inputs.

The intended behaviour of the system and its code differ in these places.
The model follows the code:

- **The budget after compression.** The intent is that the history never
  exceeds the character budget after compression, unless the two retained
  messages alone exceed it. The code counts the bridge message against the
  budget (core/context_manager.py:55-74), so a compressed history can still be
  over it. `Memory.BridgeCanExceedBudget` exhibits this, and
  `Memory.WindowBound` states the invariant that does hold.
- **Which entities the bridge names.** The intent is the first five entities
  in first-seen order. The code takes five from a Python `set`
  (core/context_manager.py:31-42), so which five and in what order is left
  open (`Enumeration`).
- **Idempotence of post-processing.** The intent is
  `process(process(t, d), d) == process(t, d)` for every text, and the
  test at tests/test_runner.py:73-75 checks the no-duplicate part of it. An
  injected prefix ends in a space (core/post_processor.py:31), and a blank
  reply keeps it, so a second pass changes a blank reply
  (`PostProcessing.BlankReplyNotIdempotent`).
  `PostProcessing.ProcessIdempotent` proves it for every reply that is not
  blank.
- **The number of retained messages.** It is fixed at 2 in the code
  (core/context_manager.py:62), not configurable.
- **Empathy injection never fires in the server.** The post-processor adds
  an empathy sentence only when the text it is given as the emotional context
  contains "concerned" or "frustrated" (core/post_processor.py:30-33). The
  server passes it the persona directive (core/main_server.py:165), not the
  state's name. None of the five directives contains either word, in any case
  (core/emotional_state.py:48, 70-73). So in a live chat turn post-processing
  only strips the reply and spaces its list items
  (`ChatServer.NoEmpathyFromAnalyzer`).

## Model

| member | source | states |
|---|---|---|
| Memory.ContextManager.constructor | core/context_manager.py:16-20 | the character budget is four times the token budget (1024 tokens by default); the history starts empty; the system prompt is the one given |
| Memory.Take | core/context_manager.py:42 | slicing `[:n]`: the result is the first min(n, length) items of the list |
| Memory.BridgeSummary | core/context_manager.py:22-45 | the bridge text always starts with "Context summary:"; it is exactly the "Previous conversation ended." fallback if and only if no entity was found in the evicted text |
| Memory.ChosenEntitiesSpec | core/context_manager.py:27-43 | the bridge names min(5, number of entities) entities; they are pairwise distinct and all found by the entity expressions; when the finder returns pieces of its input, each one is a substring of the space-joined evicted contents |
| Memory.EnforcedSpec | core/context_manager.py:51-74 | at or under budget, or with at most two messages, the history is left exactly as it was; otherwise it becomes three entries: a system bridge built from the evicted prefix, then the previous last two messages in their order |
| Memory.WindowBound | core/context_manager.py:55-74 | after the window rule the history fits the budget or has at most three entries |
| Memory.BridgeCanExceedBudget | core/context_manager.py:55-74 | for one concrete history the two retained messages fit a 10-character budget, but the compressed history exceeds it, because the bridge is counted too |
| Memory.ContextManager.AddMessage | core/context_manager.py:47-49 | the new history is the window rule applied to the old history with exactly one message appended; the budget invariant holds afterwards |
| Memory.ContextManager.EnforceLimits | core/context_manager.py:51-74 | the loop's sum of content lengths decides compression; the new history is the window rule applied to the old one; the budget invariant holds |
| Memory.ContextManager.FullContext | core/context_manager.py:76-83 | the context is one longer than the history: the system prompt as a system entry, then the history unchanged |
| Memory.ContextManager.Clear | core/context_manager.py:85-86 | the history becomes empty; the system prompt is a constant and cannot change |
| Memory.SmallWindowScenario | tests/test_runner.py:52-62 | with a 50-token memory, after a 30-, a 13- and a 200-character message, the full context has fewer than five entries and its first history entry is a bridge containing "Context summary" |
| Emotion.Compile | core/emotional_state.py:38-41 | every pattern is compiled, in order, with its own source and case-insensitive matching |
| Emotion.CompiledPatterns | core/emotional_state.py:36-41 | the compiled table has an entry for exactly the three non-neutral states, each the compiled list of that state's patterns |
| Emotion.Score | core/emotional_state.py:50-55 | NEUTRAL has no patterns, so its score is always 0 |
| Emotion.Scores | core/emotional_state.py:50-55 | the score table holds every state, each with its summed match count |
| Emotion.FirstMax | core/emotional_state.py:59 | the maximum of the score table is one of the states, and no state scores more than it |
| Emotion.FirstMaxIsFirst | core/emotional_state.py:59 | every state before the maximum in enum order scores strictly less, so ties go to the earliest state |
| Emotion.WinnerIsFirstMaximal | core/emotional_state.py:50-62 | the classified state scores at least as much as every state, and strictly more than every state before it in enum order |
| Emotion.NeutralIffNoMatch | core/emotional_state.py:59-62 | a non-empty message is NEUTRAL if and only if every state scores 0 |
| Emotion.EmptyTextDirective | core/emotional_state.py:47-48 | empty text gives NEUTRAL with "Respond professionally.", a directive that none of the four mapped directives equals |
| Emotion.DirectiveOfState | core/emotional_state.py:64-75 | for non-empty text the directive is the one mapped from the classified state, and the mapping is injective |
| Emotion.DirectivesDistinct | core/emotional_state.py:68-75 | helper for the injectivity in `DirectiveOfState`: the four directives have lengths 37, 55, 66 and 62, so they are pairwise distinct |
| Emotion.MatchingIgnoresCase | core/emotional_state.py:39 | every compiled expression carries the IGNORECASE flag |
| Emotion.ClassifyIgnoresCase | core/emotional_state.py:39-62 | with an engine that honours IGNORECASE, a message and its lower-cased form get the same state and directive, so classification is case-insensitive |
| Emotion.EmotionalAnalyzer.constructor | core/emotional_state.py:36-41 | the analyzer uses the given matching engine over the compiled table |
| Emotion.EmotionalAnalyzer.AddMatches | core/emotional_state.py:53-55 | the inner loop adds the match count of every pattern of one state to that state's score and leaves the other scores alone |
| Emotion.EmotionalAnalyzer.ScoreMessage | core/emotional_state.py:50-55 | the scoring loops produce exactly the score table of the message |
| Emotion.EmotionalAnalyzer.Analyze | core/emotional_state.py:43-66 | the returned state and directive are the classification of the message |
| Emotion.ProblemIsConcerned | tests/test_runner.py:22-23 | when only the failure-words pattern matches, once ("problem"), "I have a big problem with my server" is CONCERNED |
| Emotion.ThanksIsCelebratory | tests/test_runner.py:26-27 | when the thanks pattern matches twice ("Thank you", "works") and no other pattern matches, "Thank you so much, it works perfectly!" is CELEBRATORY |
| Emotion.StupidIsFrustrated | tests/test_runner.py:30-31 | when each frustration pattern matches once ("stupid", "!!") and no other pattern matches, "This is stupid, it keeps crashing!!" is FRUSTRATED |
| PostProcessing.SpacedIsRef | core/post_processor.py:38 | the left-to-right rewrite equals a character-by-character reference: every character is kept, and a space goes before each list character that follows a digit and a period |
| PostProcessing.SpacedSnoc | core/post_processor.py:38 | appending a character to the input appends that character, and the space it needs, to the output |
| PostProcessing.SpacedNoListGap | core/post_processor.py:38 | after the rewrite, no digit and period is directly followed by a list character |
| PostProcessing.SpacedFixpoint | core/post_processor.py:38 | text without a digit-period-list-character gap is left unchanged |
| PostProcessing.SpacedIdempotent | core/post_processor.py:38 | spacing twice is the same as spacing once |
| PostProcessing.SpacedKeepsEnds | core/post_processor.py:38 | spacing keeps the first and the last character, and the second one after a non-digit |
| PostProcessing.SpacedFirstSentence | core/post_processor.py:23-38 | spacing does not change the text before the first period, so it cannot change whether empathy is detected |
| PostProcessing.SpacedAfterPlainLead | core/post_processor.py:31-38 | a digit-free prefix passes through spacing unchanged, and the rest is spaced on its own |
| PostProcessing.EmpathyPrefixCases | core/post_processor.py:29-33 | the injected sentence is nothing, the concerned prefix, or the frustrated prefix |
| PostProcessing.PrefixIsEmpathetic | core/post_processor.py:22-33 | a reply that starts with either injected prefix is recognised as empathetic |
| PostProcessing.ProcessPrefix | core/post_processor.py:13-38 | the reply is stripped first; with an empathy marker in the first sentence nothing is added; otherwise "concerned" in the lowered directive adds the concerned prefix, else "frustrated" adds the frustrated one, else nothing; then list items are spaced |
| PostProcessing.ProcessStripped | core/post_processor.py:18-38 | for a reply that is not blank, the result neither starts nor ends with whitespace |
| PostProcessing.ProcessIdempotent | core/post_processor.py:13-44 | for a reply that is not blank, processing the result again with the same directive changes nothing |
| PostProcessing.BlankReplyNotIdempotent | core/post_processor.py:18-31 | a blank reply with "concerned" becomes the prefix with its trailing space, and processing that again strips the space |
| PostProcessing.ServerDownScenario | tests/test_runner.py:69-75 | "The server is down." with "concerned" becomes "I understand the issue. The server is down.", with the marker only at the start; processing that result again leaves it unchanged, so the marker still occurs once |
| Retrieval.CleanQuerySpec | core/rag_engine.py:79 | every quote becomes a space, every other character stays in place, and no quote is left |
| Retrieval.CleanQueryIdempotent | core/rag_engine.py:79 | cleaning a cleaned query changes nothing |
| Retrieval.UnphrasePhrase | core/rag_engine.py:81 | reading a prefix phrase back gives its token |
| Retrieval.WordsOfPhrases | core/rag_engine.py:81 | splitting the space-joined phrases of whitespace-free tokens gives back the phrases |
| Retrieval.FtsQueryRoundTrip | core/rag_engine.py:79-81 | the FTS query is one prefix phrase per whitespace token of the cleaned query, in order, separated by single spaces; reading the phrases back gives exactly the tokens |
| Retrieval.TokensHaveNoQuote | core/rag_engine.py:79-81 | no token of the cleaned query contains a quote |
| Retrieval.FtsQueryEmpty | core/rag_engine.py:79-81 | the FTS query is empty if and only if the input is made only of whitespace and quotes |
| Retrieval.SingleWordQuery | core/rag_engine.py:81 | a query that is one quote-free word becomes exactly that word's prefix phrase |
| Retrieval.NeuroLiteQuery | core/rag_engine.py:81 | the query "Neuro-Lite" becomes the single prefix phrase `"Neuro-Lite"*` |
| Retrieval.Limited | core/rag_engine.py:89-92 | SQL LIMIT keeps a prefix of the ranked rows, no longer than a non-negative limit, and all rows when there are fewer |
| Retrieval.SearchResultsSpec | core/rag_engine.py:70-107 | a syntax error or other failure gives no results; fetched rows give exactly min(limit, number of rows) results, or all rows for a negative limit; every result copies question, answer and source from the row at the same ranking position |
| Retrieval.ResultsFromStore | core/rag_engine.py:83-99 | when the store returns only stored rows, every result shows a stored entry |
| Retrieval.RagEngine.constructor | core/rag_engine.py:13-35 | opening the database keeps the rows already stored and the AUTOINCREMENT position, whose ids increase and stay below it; a new database is the empty table with ids starting at 1 |
| Retrieval.RagEngine.Insert | core/rag_engine.py:109-117 | an accepted insert appends exactly one row with the next id; a failed one changes nothing; ids stay increasing, and nothing is raised |
| Retrieval.RagEngine.Search | core/rag_engine.py:70-107 | the result-building loop returns the shaped results for what the store gives back on the FTS query |
| Retrieval.NeuroLiteScenario | tests/test_runner.py:40-45 | after inserting the Neuro-Lite entry into an empty store, searching "Neuro-Lite" returns a first result whose answer contains "empathic", given that the store returns that row for the phrase |
| ChatServer.KnowledgeContext | core/main_server.py:108-115 | the loop builds exactly the knowledge block of the search results |
| ChatServer.KnowledgeBlockSpec | core/main_server.py:108-115 | no results give the fixed fallback line; otherwise the block is the header, then each result's line at its position in result order, then one line break; it ends in a blank line and its length leaves room for nothing else |
| ChatServer.KnowledgeLinesAppend | core/main_server.py:111-112 | the lines of two result lists joined are the lines of each, one after the other |
| ChatServer.PromptLines | core/main_server.py:118 | split at line breaks, the prompt gives back the base prompt, the directive, then the lines of the knowledge block |
| ChatServer.OverrideSystem | core/main_server.py:126-129 | the override loop rewrites the first system message and stops |
| ChatServer.OverrideAt | core/main_server.py:126-129 | when the first system message is at index i, exactly that entry is replaced by the new prompt |
| ChatServer.OverrideNone | core/main_server.py:126-129 | without a system message the list is unchanged |
| ChatServer.OverrideSpec | core/main_server.py:126-129 | the first system entry becomes the new prompt, and it is the only entry that can change; the length and every role are kept |
| ChatServer.OverrideContext | core/main_server.py:124-129 | on the full context only the fresh leading system entry is rewritten; the stored history, bridges included, is untouched |
| ChatServer.StreamTokens | core/main_server.py:150-155 | the stream loop's reply and events are the accumulated tokens and one event per token |
| ChatServer.StreamAgrees | core/main_server.py:150-155 | the reply is the in-order concatenation of the chunks that carry content, and event k carries token k |
| ChatServer.ChatTurn | core/main_server.py:98-180 | the model gets the composed prompt as its system message, then the history with the user message added; the events are the token events followed by DONE on completion or ERROR on failure; on completion exactly one assistant message holding the post-processed reply is added, and on failure only the user message is |
| ChatServer.NoEmpathyFromAnalyzer | core/main_server.py:165 | with any directive the analyzer produces, post-processing only strips the reply and spaces its list items: no empathy sentence is ever injected |
| ChatServer.EmptyDirectiveNeutral | core/emotional_state.py:48 | the empty-text directive mentions neither "concerned" nor "frustrated", in any case |
| ChatServer.NeutralDirectiveNeutral | core/emotional_state.py:70 | the NEUTRAL directive mentions neither "concerned" nor "frustrated", in any case |
| ChatServer.ConcernedDirectiveNeutral | core/emotional_state.py:71 | the CONCERNED directive mentions neither "concerned" nor "frustrated", in any case |
| ChatServer.FrustratedDirectiveNeutral | core/emotional_state.py:72 | the FRUSTRATED directive mentions neither "concerned" nor "frustrated", in any case |
| ChatServer.CelebratoryDirectiveNeutral | core/emotional_state.py:73 | the CELEBRATORY directive mentions neither "concerned" nor "frustrated", in any case |
| Validation.FirstInSpec | developer_tools/validate_data.py:56-58 | the keyword search finds nothing if and only if no keyword occurs; otherwise it finds the first keyword in list order that occurs |
| Validation.ValidateSpec | developer_tools/validate_data.py:44-65 | a text is valid if and only if no PII expression matches, no toxic keyword occurs in the lowered text, and its hash is unknown; PII is reported first, then the first toxic keyword, then "Duplicate entry"; a valid text gets "Valid" |
| Validation.ValidateOnlyHashMatters | developer_tools/validate_data.py:60-63 | the stored hashes affect the verdict only through whether they contain the text's own hash |
| Validation.Scan | developer_tools/validate_data.py:83-92 | the number of valid blocks never exceeds the number of blocks |
| Validation.ScanStep | developer_tools/validate_data.py:83-90 | scanning one more block adds its hash and one to the count when it is valid at that point, and changes nothing otherwise |
| Validation.ScanKeeps | developer_tools/validate_data.py:83-90 | the scan never loses a hash it started with |
| Validation.ScanGrows | developer_tools/validate_data.py:83-90 | the set of hashes only grows as the scan advances |
| Validation.RepeatRejected | developer_tools/validate_data.py:83-90 | a block identical to an earlier block of the same scan is never valid: either the earlier one was accepted and recorded its hash, or it was rejected for a reason that rejects the copy too |
| Validation.ScanCount | developer_tools/validate_data.py:81-92 | the valid count is the number of blocks accepted when the scan reaches them |
| Validation.ScanHashes | developer_tools/validate_data.py:83-90 | the final hash set is the initial one plus the hashes of exactly the accepted blocks |
| Validation.DataValidator.constructor | developer_tools/validate_data.py:27-30 | the validator starts from the given set of known hashes |
| Validation.DataValidator.ValidateText | developer_tools/validate_data.py:44-65 | the early-return loops give the verdict and the reason of the specification, and change nothing |
| Validation.DataValidator.ScanContent | developer_tools/validate_data.py:80-92 | the content is split at blank lines; the new hash set and the valid count are those of the scan; valid plus rejected is the number of blocks |
| Validation.EmailIsPii | tests/test_runner.py:87-88 | when the e-mail expression matches, "My email is test@example.com" is rejected with a reason containing "PII" |
| Validation.HateIsToxic | tests/test_runner.py:91-92 | without PII, "I hate this product" is rejected as toxic for "hate", with a reason containing "Toxic" |
| Validation.RestartIsValid | tests/test_runner.py:95-96 | without PII and with an unknown hash, "How do I restart?" is valid |
| Text.StripSpec | core/post_processor.py:18 | `strip` returns a slice of its input that neither starts nor ends with whitespace, and everything cut off on both sides is whitespace |
| Text.StripUnchanged | core/post_processor.py:18 | stripping text that does not start or end with whitespace leaves it unchanged |
| Text.BeforeFirst | core/post_processor.py:23 | the part before the first period contains no period, starts the text, and is followed by a period unless it is the whole text |
| Text.BeforeFirstUnique | core/post_processor.py:23 | those three properties determine the part before the first period |
| Text.WordsAreWords | core/rag_engine.py:81 | every piece of `split()` is non-empty and free of whitespace |
| Text.WordsEmpty | core/rag_engine.py:81 | `split()` gives no piece if and only if the text is all whitespace |
| Text.WordsOfJoin | core/rag_engine.py:81 | splitting words joined by single spaces gives back the words |
| Text.IndexOfSpec | developer_tools/validate_data.py:80 | the separator search inside `split(sep)` gives -1 if and only if the separator does not occur, and otherwise its first occurrence, which is where the first piece ends |
| Text.SplitOnJoin | developer_tools/validate_data.py:80 | joining the pieces of `split(sep)` with the separator gives back the text |
| Text.SplitOnPieces | developer_tools/validate_data.py:80 | no piece of `split(sep)` contains the separator |

## Left out

- Regular-expression matching is not modelled. The emotion patterns, the entity expressions and the PII expressions are abstract functions (`MatchCounter`, `FindAll`, `Searcher`). The list-spacing substitution of the post-processor is modelled exactly.
- `lower` maps only the ASCII letters, and a digit is an ASCII digit. Unicode case mapping and Unicode digits are not modelled. Whitespace is the set of code points `str.isspace` accepts.
- Python set iteration order in the bridge summary is a parameter (`Enumeration`). Which five entities are named, and in what order, is left open.
- Roles are a three-valued datatype rather than arbitrary strings.
- The SQLite store is not modelled: schema, triggers, FTS5 tokenisation, `MATCH` and the bm25 ranking. It is one opaque `Matcher` from the stored entries and the FTS query to ranked rows or a failure.
- Retrieval.SearchResults: a failure other than a syntax error is taken to happen before any row is shaped (connecting, executing or fetching), so it gives no results. A failure inside the row-shaping loop, which would return the results gathered so far, is not modelled.
- Retrieval.RagEngine.Insert: whether the database accepts the row is a parameter (`accepted`). The logged error is not modelled.
- MD5 is an opaque `Hasher`.
- Loading existing hashes from the knowledge base in `_load_existing_hashes` is not modelled. The initial hash set is a constructor argument. As written, that function uses `os`, which the module imports only inside `scan_file` and its `__main__` block, so constructing a `DataValidator` elsewhere raises `NameError` whenever the database path is checked.
- File reading in `scan_file`, the `__main__` blocks, and all logging are not modelled.
- The HTTP layer is not modelled: the FastAPI app and routes, the request schema, the 503 answer when no model is loaded, the web UI root, server startup, the lifespan hook that loads the model and builds the singletons, and the executor and async machinery. `ChatTurn` is one turn with a loaded model.
- The request's `user_id` is never read by the source. The model has one shared memory.
- Concurrent requests interleaving on the shared memory are not modelled.
- The language model is an opaque function from the message list to a chunk sequence and a completion flag. Its sampling settings (temperature, token limit) are not modelled.
- developer_tools/distill_knowledge.py and developer_tools/build_release.py are not part of this model. They are I/O scripts.

=== FILE: chatserver.dfy ===
/**
 * One turn of the chat endpoint: classify the message, look up the knowledge
 * base, compose the system prompt, remember the user message, hand the
 * context to the language model, relay its token stream as server-sent
 * events and, when the stream completes, remember the post-processed reply.
 * The language model is an opaque function from the message list to the
 * chunks it streams and whether the stream ends normally.
 */
module ChatServer {
  import opened Text
  import opened Memory
  import opened Emotion
  import opened PostProcessing
  import opened Retrieval

  const KnowledgeHeader := "Relevant Knowledge Base Entries:\n"
  const NoKnowledge := "No direct knowledge base entry found. Rely on general knowledge.\n"
  const DoneEvent := "data: [DONE]\n\n"
  const ErrorEvent := "data: [ERROR]\n\n"

  /** One streamed chunk: its delta carries a piece of content or nothing. */
  datatype Chunk = Chunk(content: Option<string>)

  /** What the model produces: the chunks it streamed, and whether the stream
      ended normally (false: an exception was raised after those chunks). */
  datatype Generation = Generation(chunks: seq<Chunk>, completes: bool)

  type Llm = seq<Message> -> Generation

  /** The line of one search result: "- Q: ", the question, " A: ", the answer and a line break. */
  function KnowledgeLine(d: Doc): string {
    "- Q: " + d.question + " A: " + d.answer + "\n"
  }

  /** The knowledge lines of the results, in result order. */
  function KnowledgeLines(docs: seq<Doc>): string
    decreases |docs|
  {
    if docs == [] then "" else KnowledgeLines(docs[..|docs| - 1]) + KnowledgeLine(docs[|docs| - 1])
  }

  /** The knowledge part of the system prompt. */
  function KnowledgeBlock(docs: seq<Doc>): string {
    if docs == [] then NoKnowledge else KnowledgeHeader + KnowledgeLines(docs) + "\n"
  }

  /** The base prompt, the directive and the knowledge block, one after the other, separated by line breaks. */
  function SystemPrompt(base: string, modifier: string, rag: string): string {
    base + "\n" + modifier + "\n" + rag
  }

  /** The message list with the content of its first system message replaced. */
  function OverrideFirstSystem(ms: seq<Message>, prompt: string): seq<Message>
    decreases |ms|
  {
    if ms == [] then []
    else if ms[0].role == System then [Message(System, prompt)] + ms[1..]
    else [ms[0]] + OverrideFirstSystem(ms[1..], prompt)
  }

  /** The server-sent event that carries one token. */
  function Event(token: string): string {
    "data: " + token + "\n\n"
  }

  /** The contents the chunks carry, in stream order. */
  function Tokens(chunks: seq<Chunk>): seq<string>
    decreases |chunks|
  {
    if chunks == [] then []
    else
      var last := chunks[|chunks| - 1];
      Tokens(chunks[..|chunks| - 1]) + (if last.content.Some? then [last.content.value] else [])
  }

  /** The reply accumulated from the stream. */
  function Accumulated(chunks: seq<Chunk>): string
    decreases |chunks|
  {
    if chunks == [] then ""
    else
      var last := chunks[|chunks| - 1];
      Accumulated(chunks[..|chunks| - 1]) + (if last.content.Some? then last.content.value else "")
  }

  /** The events the stream loop yields. */
  function TokenEvents(chunks: seq<Chunk>): seq<string>
    decreases |chunks|
  {
    if chunks == [] then []
    else
      var last := chunks[|chunks| - 1];
      TokenEvents(chunks[..|chunks| - 1]) + (if last.content.Some? then [Event(last.content.value)] else [])
  }

  /** Builds `rag_context` from the search results. */
  method KnowledgeContext(docs: seq<Doc>) returns (ctx: string)
    ensures ctx == KnowledgeBlock(docs)
  {
    if docs == [] {
      return NoKnowledge;
    }
    ctx := KnowledgeHeader;
    var i := 0;
    while i < |docs|
      invariant 0 <= i <= |docs|
      invariant ctx == KnowledgeHeader + KnowledgeLines(docs[..i])
    {
      assert docs[..i + 1][..i] == docs[..i];
      ctx := ctx + KnowledgeLine(docs[i]);
      i := i + 1;
    }
    assert docs[..|docs|] == docs;
    ctx := ctx + "\n";
  }

  /** The override loop: the first message with the system role gets the
      augmented prompt, and the loop stops there. */
  method OverrideSystem(messages: seq<Message>, prompt: string) returns (r: seq<Message>)
    ensures r == OverrideFirstSystem(messages, prompt)
  {
    r := messages;
    var i := 0;
    while i < |messages|
      invariant 0 <= i <= |messages|
      invariant forall j :: 0 <= j < i ==> messages[j].role != System
      invariant r == messages
    {
      if messages[i].role == System {
        r := messages[i := Message(System, prompt)];
        OverrideAt(messages, prompt, i);
        return;
      }
      i := i + 1;
    }
    OverrideNone(messages, prompt);
  }

  /** The stream loop: accumulates the content of every chunk that has one
      and yields it as an event. */
  method StreamTokens(chunks: seq<Chunk>) returns (full: string, events: seq<string>)
    ensures full == Accumulated(chunks) && events == TokenEvents(chunks)
  {
    full := "";
    events := [];
    var i := 0;
    while i < |chunks|
      invariant 0 <= i <= |chunks|
      invariant full == Accumulated(chunks[..i]) && events == TokenEvents(chunks[..i])
    {
      assert chunks[..i + 1][..i] == chunks[..i];
      var delta := chunks[i];
      if delta.content.Some? {
        var token := delta.content.value;
        full := full + token;
        events := events + [Event(token)];
      }
      i := i + 1;
    }
    assert chunks[..|chunks|] == chunks;
  }

  /** One call of the chat endpoint with a loaded model. `sent` is the
      message list given to the model, `events` the server-sent events. */
  method ChatTurn(analyzer: EmotionalAnalyzer, rag: RagEngine, memory: ContextManager, llm: Llm, message: string)
    returns (sent: seq<Message>, events: seq<string>)
    modifies memory
    ensures var modifier := Classify(message, analyzer.count).1;
      var docs := SearchResults(rag.matcher(rag.entries, FtsQuery(message)), DefaultLimit);
      var withUser := Enforced(old(memory.history) + [Message(User, message)], memory.maxHistoryChars, memory.findAll, memory.order);
      var g := llm(sent);
      && sent == [Message(System, SystemPrompt(memory.systemPrompt, modifier, KnowledgeBlock(docs)))] + withUser
      && events == TokenEvents(g.chunks) + [if g.completes then DoneEvent else ErrorEvent]
      && memory.history == (if g.completes
                            then Enforced(withUser + [Message(Assistant, Process(Accumulated(g.chunks), modifier))],
                                          memory.maxHistoryChars, memory.findAll, memory.order)
                            else withUser)
  {
    var state, modifier := analyzer.Analyze(message);
    var docs := rag.Search(message);
    var ragContext := KnowledgeContext(docs);
    var prompt := SystemPrompt(memory.systemPrompt, modifier, ragContext);
    memory.AddMessage(User, message);
    var messages := memory.FullContext();
    OverrideContext(memory.systemPrompt, prompt, memory.history);
    messages := OverrideSystem(messages, prompt);
    var g := llm(messages);
    var full, tokenEvents := StreamTokens(g.chunks);
    events := tokenEvents;
    if g.completes {
      var processed := Process(full, modifier);
      memory.AddMessage(Assistant, processed);
      events := events + [DoneEvent];
    } else {
      events := events + [ErrorEvent];
    }
    sent := messages;
  }

  lemma OverrideAt(ms: seq<Message>, prompt: string, i: nat)
    requires i < |ms| && ms[i].role == System && forall j :: 0 <= j < i ==> ms[j].role != System
    ensures OverrideFirstSystem(ms, prompt) == ms[i := Message(System, prompt)]
    decreases i
  {
    if i > 0 {
      OverrideAt(ms[1..], prompt, i - 1);
      assert ms[i := Message(System, prompt)] == [ms[0]] + ms[1..][i - 1 := Message(System, prompt)];
    }
  }

  lemma OverrideNone(ms: seq<Message>, prompt: string)
    requires forall j :: 0 <= j < |ms| ==> ms[j].role != System
    ensures OverrideFirstSystem(ms, prompt) == ms
  {
    if ms != [] {
      OverrideNone(ms[1..], prompt);
    }
  }

  /** The first system message takes the new prompt as its content, and it is
      the only message that changes: every other message, and the role of
      every message, stays as it was. */
  lemma {:induction false} OverrideSpec(ms: seq<Message>, prompt: string)
    ensures var r := OverrideFirstSystem(ms, prompt);
      |r| == |ms|
      && (forall j :: 0 <= j < |ms| ==> r[j].role == ms[j].role)
      && (forall j :: 0 <= j < |ms| && ms[j].role == System && (forall i :: 0 <= i < j ==> ms[i].role != System) ==>
            r[j] == Message(System, prompt))
      && forall j :: 0 <= j < |ms| && r[j] != ms[j] ==>
           r[j] == Message(System, prompt) && forall i :: 0 <= i < j ==> ms[i].role != System
    decreases |ms|
  {
    if ms != [] && ms[0].role == System {
      OverrideAt(ms, prompt, 0);
    }
    if ms != [] && ms[0].role != System {
      OverrideSpec(ms[1..], prompt);
      var r := OverrideFirstSystem(ms, prompt);
      var t := OverrideFirstSystem(ms[1..], prompt);
      assert r == [ms[0]] + t;
      forall j | 0 <= j < |ms| && ms[j].role == System && (forall i :: 0 <= i < j ==> ms[i].role != System)
        ensures r[j] == Message(System, prompt)
      {
        OverrideAt(ms, prompt, j);
      }
      forall j | 0 <= j < |ms| && r[j] != ms[j]
        ensures r[j] == Message(System, prompt) && forall i :: 0 <= i < j ==> ms[i].role != System
      {
        assert j > 0 && r[j] == t[j - 1] && ms[j] == ms[1..][j - 1];
        forall i | 0 <= i < j ensures ms[i].role != System {
          if i > 0 {
            assert ms[i] == ms[1..][i - 1];
          }
        }
      }
    }
  }

  /** On the full context the override rewrites the fresh leading system
      message and leaves the stored history, bridges included, untouched. */
  lemma OverrideContext(systemPrompt: string, prompt: string, history: seq<Message>)
    ensures OverrideFirstSystem([Message(System, systemPrompt)] + history, prompt) == [Message(System, prompt)] + history
  {
    assert ([Message(System, systemPrompt)] + history)[1..] == history;
  }

  /** Without results the block is the fixed fallback; with results it is the
      header, then each result's line in result order, then one more line
      break, so that the block ends in a blank line and holds nothing else. */
  lemma KnowledgeBlockSpec(docs: seq<Doc>)
    ensures docs == [] ==> KnowledgeBlock(docs) == NoKnowledge
    ensures var b := KnowledgeBlock(docs);
      docs != [] ==>
        && StartsWith(b, KnowledgeHeader)
        && b[|b| - 2..] == "\n\n"
        && |b| == |KnowledgeHeader| + |KnowledgeLines(docs)| + 1
        && forall k :: 0 <= k < |docs| ==>
             OccursAt(b, KnowledgeLine(docs[k]), |KnowledgeHeader| + |KnowledgeLines(docs[..k])|)
  {
    if docs != [] {
      KnowledgeBlockEnds(docs);
      forall k | 0 <= k < |docs|
        ensures OccursAt(KnowledgeBlock(docs), KnowledgeLine(docs[k]), |KnowledgeHeader| + |KnowledgeLines(docs[..k])|)
      {
        KnowledgeLineInBlock(docs, k);
      }
    }
  }

  lemma KnowledgeBlockEnds(docs: seq<Doc>)
    requires docs != []
    ensures var b := KnowledgeBlock(docs); StartsWith(b, KnowledgeHeader) && b[|b| - 2..] == "\n\n"
  {
    var b := KnowledgeBlock(docs);
    var front, line := KnowledgeLines(docs[..|docs| - 1]), KnowledgeLine(docs[|docs| - 1]);
    assert line[|line| - 1] == '\n';
    assert b == KnowledgeHeader + (front + line + "\n");
    assert b[..|KnowledgeHeader|] == KnowledgeHeader;
    assert b[|b| - 2] == line[|line| - 1];
  }

  lemma KnowledgeLineInBlock(docs: seq<Doc>, k: nat)
    requires k < |docs|
    ensures OccursAt(KnowledgeBlock(docs), KnowledgeLine(docs[k]), |KnowledgeHeader| + |KnowledgeLines(docs[..k])|)
  {
    KnowledgeLinesAt(docs, k);
    var b := KnowledgeBlock(docs);
    var off := |KnowledgeHeader| + |KnowledgeLines(docs[..k])|;
    var line := KnowledgeLine(docs[k]);
    var pre, post := KnowledgeHeader + KnowledgeLines(docs[..k]), KnowledgeLines(docs[k + 1..]) + "\n";
    assert b == pre + line + post;
    assert |pre| == off;
    assert b[off..off + |line|] == line;
  }

  lemma {:induction false} KnowledgeLinesAppend(a: seq<Doc>, b: seq<Doc>)
    ensures KnowledgeLines(a + b) == KnowledgeLines(a) + KnowledgeLines(b)
    decreases |b|
  {
    if b == [] {
      assert a + b == a;
    } else {
      var c, p, d := a + b, b[..|b| - 1], b[|b| - 1];
      assert c[..|c| - 1] == a + p;
      assert c[|c| - 1] == d;
      assert KnowledgeLines(c) == KnowledgeLines(a + p) + KnowledgeLine(d);
      assert KnowledgeLines(b) == KnowledgeLines(p) + KnowledgeLine(d);
      KnowledgeLinesAppend(a, p);
    }
  }

  lemma KnowledgeLinesAt(docs: seq<Doc>, k: nat)
    requires k < |docs|
    ensures KnowledgeLines(docs) == KnowledgeLines(docs[..k]) + KnowledgeLine(docs[k]) + KnowledgeLines(docs[k + 1..])
  {
    var front, back := docs[..k + 1], docs[k + 1..];
    assert docs == front + back;
    KnowledgeLinesAppend(front, back);
    assert front[..|front| - 1] == docs[..k];
    assert front[|front| - 1] == docs[k];
    assert KnowledgeLines(front) == KnowledgeLines(docs[..k]) + KnowledgeLine(docs[k]);
  }

  /** Splitting the composed prompt at line breaks gives back the base prompt
      and the directive as its first two lines, then the lines of the
      knowledge block, as long as neither of the first two holds a line break. */
  lemma PromptLines(base: string, modifier: string, rag: string)
    requires '\n' !in base && '\n' !in modifier
    ensures SplitOn(SystemPrompt(base, modifier, rag), "\n") == [base, modifier] + SplitOn(rag, "\n")
  {
    assert SystemPrompt(base, modifier, rag) == base + ['\n'] + (modifier + ['\n'] + rag);
    SplitOnCharCons(base, '\n', modifier + ['\n'] + rag);
    SplitOnCharCons(modifier, '\n', rag);
  }

  /** The reply is the tokens joined together, and each event carries one
      token, in stream order; chunks without content contribute nothing. */
  lemma {:induction false} StreamAgrees(chunks: seq<Chunk>)
    ensures var ts := Tokens(chunks);
      && Accumulated(chunks) == Join(ts, "")
      && |TokenEvents(chunks)| == |ts|
      && forall k :: 0 <= k < |ts| ==> TokenEvents(chunks)[k] == Event(ts[k])
    decreases |chunks|
  {
    if chunks != [] {
      var init := chunks[..|chunks| - 1];
      var last := chunks[|chunks| - 1];
      StreamAgrees(init);
      if last.content.Some? {
        var v := last.content.value;
        var ts := Tokens(init);
        JoinSnoc(ts, v);
        assert Tokens(chunks) == ts + [v];
        assert TokenEvents(chunks) == TokenEvents(init) + [Event(v)];
        forall k | 0 <= k < |ts| + 1 ensures TokenEvents(chunks)[k] == Event((ts + [v])[k]) {
          if k < |ts| {
            assert TokenEvents(chunks)[k] == TokenEvents(init)[k];
          }
        }
      } else {
        assert Tokens(chunks) == Tokens(init);
        assert TokenEvents(chunks) == TokenEvents(init);
      }
    }
  }

  lemma {:induction false} JoinSnoc(ts: seq<string>, t: string)
    ensures Join(ts + [t], "") == Join(ts, "") + t
    decreases |ts|
  {
    if ts == [] {
      assert [] + [t] == [t];
    } else {
      assert (ts + [t])[1..] == ts[1..] + [t];
      JoinSnoc(ts[1..], t);
      if |ts| == 1 {
        assert Join(ts[1..] + [t], "") == t;
      }
    }
  }

  /** The directive the analyzer hands over never mentions "concerned" or
      "frustrated", so the server's post-processing never injects an empathy
      sentence: it only strips the reply and spaces its list items. */
  lemma NoEmpathyFromAnalyzer(text: string, count: MatchCounter, reply: string)
    ensures Process(reply, Classify(text, count).1) == Spaced(Strip(reply))
  {
    var m := Classify(text, count).1;
    DirectiveOfState(text, count, Neutral, Neutral);
    if text == [] {
      EmptyDirectiveNeutral();
    } else {
      var s := Classify(text, count).0;
      StateCases(s);
      if s == Neutral {
        NeutralDirectiveNeutral();
      } else if s == Concerned {
        ConcernedDirectiveNeutral();
      } else if s == Frustrated {
        FrustratedDirectiveNeutral();
      } else {
        CelebratoryDirectiveNeutral();
      }
    }
    ProcessPrefix(reply, m);
  }

  /** No upper-case E or T, and neither "er", "eR" nor "te": such a text, once
      lowered, holds neither "er" nor "te". */
  predicate Plain(s: string)
  {
    forall i :: 0 <= i < |s| ==>
      s[i] != 'E' && s[i] != 'T' &&
      (i + 1 < |s| ==> !(s[i] == 'e' && (s[i + 1] == 'r' || s[i + 1] == 'R')) && !(s[i] == 't' && s[i + 1] == 'e'))
  }

  /** Two plain pieces, the first ending in a space, make a plain text. */
  lemma PlainJoin(a: string, b: string)
    requires Plain(a) && Plain(b) && a != [] && a[|a| - 1] == ' '
    ensures Plain(a + b)
  {
    var s := a + b;
    forall i | 0 <= i < |s|
      ensures s[i] != 'E' && s[i] != 'T' &&
        (i + 1 < |s| ==> !(s[i] == 'e' && (s[i + 1] == 'r' || s[i + 1] == 'R')) && !(s[i] == 't' && s[i + 1] == 'e'))
    {
      if i < |a| { assert s[i] == a[i]; } else { assert s[i] == b[i - |a|]; }
      if i + 1 < |a| { assert s[i + 1] == a[i + 1]; } else if i + 1 < |s| { assert s[i + 1] == b[i + 1 - |a|]; }
    }
  }

  /** A plain directive names neither keyword, whatever its case: lowered, it
      lacks "er" (inside "concerned") and "te" (inside "frustrated"). */
  lemma NoKeyword(m: string)
    requires Plain(m)
    ensures !Contains(Lower(m), "concerned") && !Contains(Lower(m), "frustrated")
  {
    var l := Lower(m);
    forall i | 0 <= i < |l| - 1
      ensures !(l[i] == "concerned"[4] && l[i + 1] == "concerned"[5])
      ensures !(l[i] == "frustrated"[7] && l[i + 1] == "frustrated"[8])
    {
      assert l[i] == LowerChar(m[i]) && l[i + 1] == LowerChar(m[i + 1]);
    }
    NotContainsByPair(l, "concerned", 4);
    NotContainsByPair(l, "frustrated", 7);
  }

  lemma RespondPlain() ensures Plain("Respond ") {}
  lemma ProfessionallyPlain() ensures Plain("professionally ") && Plain("professionally.") {}
  lemma ConcisePlain() ensures Plain("and concisely.") {}
  lemma CalmPlain() ensures Plain("Respond calmly ") && Plain("and reassuringly. ") {}
  lemma PrioritizePlain() ensures Plain("Prioritize ") && Plain("a solution.") {}
  lemma PatiencePlain() ensures Plain("Respond with ") && Plain("patience and ") {}
  lemma DirectnessPlain() ensures Plain("directness. ") && Plain("Acknowledge ") {}
  lemma FrustrationPlain() ensures Plain("the frustration.") {}
  lemma WarmPlain() ensures Plain("Respond warmly ") && Plain("and ") && Plain("professionally. ") {}
  lemma MaintainPlain() ensures Plain("Maintain ") && Plain("the positive tone.") {}

  lemma EmptyDirectiveNeutral()
    ensures !Contains(Lower(EmptyTextModifier), "concerned") && !Contains(Lower(EmptyTextModifier), "frustrated")
  {
    RespondPlain(); ProfessionallyPlain();
    PlainJoin("Respond ", "professionally.");
    NoKeyword(EmptyTextModifier);
  }

  lemma NeutralDirectiveNeutral()
    ensures var m := PersonaModifier(Neutral); !Contains(Lower(m), "concerned") && !Contains(Lower(m), "frustrated")
  {
    var a, b, c := "Respond ", "professionally ", "and concisely.";
    RespondPlain(); ProfessionallyPlain(); ConcisePlain();
    PlainJoin(a, b); PlainJoin(a + b, c);
    NoKeyword(NeutralModifier);
  }

  lemma ConcernedDirectiveNeutral()
    ensures var m := PersonaModifier(Concerned); !Contains(Lower(m), "concerned") && !Contains(Lower(m), "frustrated")
  {
    var a, b, c, d := "Respond calmly ", "and reassuringly. ", "Prioritize ", "a solution.";
    CalmPlain(); PrioritizePlain();
    PlainJoin(a, b); PlainJoin(a + b, c); PlainJoin(a + b + c, d);
    NoKeyword(ConcernedModifier);
  }

  lemma FrustratedDirectiveNeutral()
    ensures var m := PersonaModifier(Frustrated); !Contains(Lower(m), "concerned") && !Contains(Lower(m), "frustrated")
  {
    var a, b, c := "Respond with ", "patience and ", "directness. ";
    var d, e := "Acknowledge ", "the frustration.";
    PatiencePlain(); DirectnessPlain(); FrustrationPlain();
    PlainJoin(a, b); PlainJoin(a + b, c); PlainJoin(a + b + c, d); PlainJoin(a + b + c + d, e);
    NoKeyword(FrustratedModifier);
  }

  lemma CelebratoryDirectiveNeutral()
    ensures var m := PersonaModifier(Celebratory); !Contains(Lower(m), "concerned") && !Contains(Lower(m), "frustrated")
  {
    var a, b, c := "Respond warmly ", "and ", "professionally. ";
    var d, e := "Maintain ", "the positive tone.";
    WarmPlain(); MaintainPlain();
    PlainJoin(a, b); PlainJoin(a + b, c); PlainJoin(a + b + c, d); PlainJoin(a + b + c + d, e);
    NoKeyword(CelebratoryModifier);
  }
}

=== FILE: emotion.dfy ===
/**
 * The lexical emotion classifier (`EmotionalAnalyzer`).
 *
 * Each emotional state but NEUTRAL has a list of regular expressions compiled
 * case-insensitively. A message's score for a state is the total number of
 * `findall` matches of its expressions; the state with the highest score wins,
 * ties going to the state that comes first in declaration order, and a
 * message with no match at all is NEUTRAL. The matching engine is a parameter:
 * `count(r, text)` stands for the number of matches of `r` in `text`.
 */
module Emotion {
  import opened Text

  /** The states in declaration order: NEUTRAL, CONCERNED, CELEBRATORY, FRUSTRATED. */
  datatype State = Neutral | Concerned | Celebratory | Frustrated

  const StateOrder: seq<State> := [Neutral, Concerned, Celebratory, Frustrated]

  /** The states that have patterns, in the order the pattern table lists them. */
  const PatternStates: seq<State> := [Concerned, Frustrated, Celebratory]

  /** Returned for an empty message, before any pattern is tried. */
  const EmptyTextModifier := "Respond " + "professionally."

  /** The directive of each state. The texts are written in short pieces, cut
      after a space, so that facts about their characters stay small. */
  const NeutralModifier := "Respond " + "professionally " + "and concisely."
  const ConcernedModifier := "Respond calmly " + "and reassuringly. " + "Prioritize " + "a solution."
  const FrustratedModifier := "Respond with " + "patience and " + "directness. " + "Acknowledge " + "the frustration."
  const CelebratoryModifier := "Respond warmly " + "and " + "professionally. " + "Maintain " + "the positive tone."

  /** The number of non-overlapping matches of an expression in a text. */
  type MatchCounter = (Regex, string) -> nat

  const FailureWords := @"\b(error|fail|cannot|can\'t|not working|broken|issue|problem|help|stuck|unable)\b"
  const LossWords := @"\b(lost|missing|afraid|worried|bad|terrible|sorry)\b"
  const AnnoyanceWords := @"\b(again|repeatedly|stupid|hate|annoying|slow|useless|wtf|why|over and over)\b"
  const MarkRuns := @"(!){2,}|\?{2,}"
  const ThanksWords := @"\b(thanks|thank you|solved|works|working|great|awesome|excellent|perfect|finally|appreciate)\b"
  const SuccessWords := @"\b(success|congrats|congratulations|happy|glad)\b"

  /** The pattern table, as source text. NEUTRAL has no patterns. */
  function Patterns(s: State): seq<string>
  {
    match s
    case Neutral => []
    case Concerned => [FailureWords, LossWords]
    case Frustrated => [AnnoyanceWords, MarkRuns]
    case Celebratory => [ThanksWords, SuccessWords]
  }

  /** Every pattern of a state, compiled to ignore case. */
  function Compile(ps: seq<string>): (rs: seq<Regex>)
    ensures |rs| == |ps|
    ensures forall k :: 0 <= k < |ps| ==> rs[k].source == ps[k] && rs[k].ignoreCase
  {
    seq(|ps|, k requires 0 <= k < |ps| => Regex(ps[k], true))
  }

  /** The compiled table: one entry per state that has patterns. */
  function CompiledPatterns(): (m: map<State, seq<Regex>>)
    ensures m.Keys == {Concerned, Frustrated, Celebratory}
    ensures forall s :: s in m ==> m[s] == Compile(Patterns(s))
  {
    map[Concerned := Compile(Patterns(Concerned)),
        Frustrated := Compile(Patterns(Frustrated)),
        Celebratory := Compile(Patterns(Celebratory))]
  }

  /** Total match count of a list of expressions. */
  function SumCounts(rs: seq<Regex>, text: string, count: MatchCounter): nat
  {
    if rs == [] then 0 else SumCounts(rs[..|rs| - 1], text, count) + count(rs[|rs| - 1], text)
  }

  /** A state's score: the matches of its expressions, zero for a state without any. */
  function Score(s: State, text: string, count: MatchCounter): (n: nat)
    ensures s == Neutral ==> n == 0
  {
    if s in CompiledPatterns() then SumCounts(CompiledPatterns()[s], text, count) else 0
  }

  /** The score table, one entry per state. */
  function Scores(text: string, count: MatchCounter): (m: map<State, nat>)
    ensures forall s :: s in m && m[s] == Score(s, text, count)
  {
    var m := map[Neutral := 0,
                 Concerned := Score(Concerned, text, count),
                 Celebratory := Score(Celebratory, text, count),
                 Frustrated := Score(Frustrated, text, count)];
    assert forall s :: s in m && m[s] == Score(s, text, count) by {
      forall s ensures s in m && m[s] == Score(s, text, count) {
        StateCases(s);
      }
    }
    m
  }

  /** A table that gives every state its score is the score table. */
  lemma ScoresUnique(m: map<State, nat>, text: string, count: MatchCounter)
    requires forall s :: s in m && m[s] == Score(s, text, count)
    ensures m == Scores(text, count)
  {
    var t := Scores(text, count);
    assert m.Keys == t.Keys;
  }

  /** The maximum by score in the order given: the first state whose score no other state exceeds. */
  function FirstMax(states: seq<State>, score: map<State, nat>): (w: State)
    requires states != [] && forall s :: s in states ==> s in score
    ensures w in states
    ensures forall s :: s in states ==> score[s] <= score[w]
  {
    if |states| == 1 then states[0]
    else
      var rest := FirstMax(states[1..], score);
      assert forall s :: s in states[1..] ==> s in states;
      if score[states[0]] >= score[rest] then states[0] else rest
  }

  /** Ties go to the earliest state: any state before the winner scores less. */
  lemma {:induction false} FirstMaxIsFirst(states: seq<State>, score: map<State, nat>, k: nat)
    requires states != [] && forall s :: s in states ==> s in score
    requires k < |states| && states[k] != FirstMax(states, score) && FirstMax(states, score) !in states[..k]
    ensures score[states[k]] < score[FirstMax(states, score)]
  {
    var w := FirstMax(states, score);
    if |states| > 1 {
      var rest := FirstMax(states[1..], score);
      assert forall s :: s in states[1..] ==> s in states;
      if k == 0 {
        assert w == rest;
      } else {
        assert states[0] in states[..k];
        assert w == rest;
        assert states[1..][..k - 1] == states[1..k];
        assert states[..k] == [states[0]] + states[1..k];
        FirstMaxIsFirst(states[1..], score, k - 1);
      }
    }
  }

  /** The directive that goes with each state. */
  function PersonaModifier(s: State): string
  {
    match s
    case Neutral => NeutralModifier
    case Concerned => ConcernedModifier
    case Frustrated => FrustratedModifier
    case Celebratory => CelebratoryModifier
  }

  /** What `analyze` returns for a message. */
  function Classify(text: string, count: MatchCounter): (State, string)
  {
    if text == [] then (Neutral, EmptyTextModifier)
    else
      var scores := Scores(text, count);
      var best := FirstMax(StateOrder, scores);
      var w := if scores[best] == 0 then Neutral else best;
      (w, PersonaModifier(w))
  }

  /** The winner's score is at least every other state's score, and every state
      before it in declaration order scores strictly less. */
  lemma WinnerIsFirstMaximal(text: string, count: MatchCounter)
    requires text != []
    ensures var w := Classify(text, count).0;
      && (forall s :: Score(s, text, count) <= Score(w, text, count))
      && (forall k :: 0 <= k < |StateOrder| && StateOrder[k] != w && w !in StateOrder[..k] ==>
            Score(StateOrder[k], text, count) < Score(w, text, count))
  {
    var scores := Scores(text, count);
    var best := FirstMax(StateOrder, scores);
    forall s ensures Score(s, text, count) <= Score(best, text, count) {
      StateCases(s);
    }
    forall k | 0 <= k < |StateOrder| && StateOrder[k] != best && best !in StateOrder[..k]
      ensures Score(StateOrder[k], text, count) < Score(best, text, count)
    {
      FirstMaxIsFirst(StateOrder, scores, k);
    }
  }

  /** A non-empty message is NEUTRAL exactly when no expression matches it. */
  lemma NeutralIffNoMatch(text: string, count: MatchCounter)
    requires text != []
    ensures Classify(text, count).0 == Neutral <==> forall s :: Score(s, text, count) == 0
  {
    WinnerIsFirstMaximal(text, count);
    var w := Classify(text, count).0;
    if w == Neutral {
      forall s ensures Score(s, text, count) == 0 {
        assert Score(s, text, count) <= Score(Neutral, text, count);
      }
    }
  }

  /** An empty message gets its own directive, which no state is mapped to. */
  lemma EmptyTextDirective(count: MatchCounter)
    ensures Classify([], count) == (Neutral, EmptyTextModifier)
    ensures forall s :: PersonaModifier(s) != EmptyTextModifier
  {
  }

  /** The directive of a non-empty message is the one mapped to its state, and
      different states get different directives. */
  lemma DirectiveOfState(text: string, count: MatchCounter, a: State, b: State)
    ensures text != [] ==> Classify(text, count).1 == PersonaModifier(Classify(text, count).0)
    ensures PersonaModifier(a) == PersonaModifier(b) ==> a == b
  {
    DirectivesDistinct();
  }

  lemma DirectivesDistinct()
    ensures |PersonaModifier(Neutral)| == 37 && |PersonaModifier(Concerned)| == 55
    ensures |PersonaModifier(Frustrated)| == 66 && |PersonaModifier(Celebratory)| == 62
  {
    assert |PersonaModifier(Neutral)| == 37;
    assert |PersonaModifier(Concerned)| == 55;
    assert |PersonaModifier(Frustrated)| == 66;
    assert |PersonaModifier(Celebratory)| == 62;
  }

  /** Every pattern is compiled case-insensitively. */
  lemma MatchingIgnoresCase(s: State)
    requires s in CompiledPatterns()
    ensures forall r :: r in CompiledPatterns()[s] ==> r.ignoreCase
  {
  }

  /** An engine that honours the IGNORECASE flag: a flagged expression counts
      the same matches in a text and in its lower-cased form. */
  ghost predicate FoldsCase(count: MatchCounter)
  {
    forall r: Regex, t: string :: r.ignoreCase ==> count(r, t) == count(r, Lower(t))
  }

  /** Flagged expressions count the same total in a text and in its lower case. */
  lemma {:induction false} SumCountsLower(rs: seq<Regex>, text: string, count: MatchCounter)
    requires FoldsCase(count)
    requires forall k :: 0 <= k < |rs| ==> rs[k].ignoreCase
    ensures SumCounts(rs, text, count) == SumCounts(rs, Lower(text), count)
    decreases |rs|
  {
    if rs != [] {
      SumCountsLower(rs[..|rs| - 1], text, count);
    }
  }

  /** With such an engine, the classification of a message does not depend on
      the case of its letters. */
  lemma ClassifyIgnoresCase(text: string, count: MatchCounter)
    requires FoldsCase(count)
    ensures Classify(text, count) == Classify(Lower(text), count)
  {
    var low := Lower(text);
    forall s ensures Score(s, text, count) == Score(s, low, count) {
      if s in CompiledPatterns() {
        SumCountsLower(CompiledPatterns()[s], text, count);
      }
    }
    ScoresUnique(Scores(text, count), low, count);
  }

  /** The analyzer: a compiled pattern table and the engine that runs it. */
  class EmotionalAnalyzer {
    const compiledPatterns: map<State, seq<Regex>> := CompiledPatterns()
    const count: MatchCounter

    constructor (count: MatchCounter)
      ensures this.count == count
    {
      this.count := count;
    }

    /** The inner loop of `analyze`: adds the match count of each of the
        state's expressions to its score, leaving the other scores alone. */
    method AddMatches(scores: map<State, nat>, st: State, patterns: seq<Regex>, text: string)
      returns (r: map<State, nat>)
      requires st in scores
      ensures r == scores[st := scores[st] + SumCounts(patterns, text, count)]
    {
      r := scores;
      var j := 0;
      while j < |patterns|
        invariant 0 <= j <= |patterns|
        invariant r == scores[st := scores[st] + SumCounts(patterns[..j], text, count)]
      {
        assert patterns[..j + 1][..j] == patterns[..j];
        r := r[st := r[st] + count(patterns[j], text)];
        j := j + 1;
      }
      assert patterns[..|patterns|] == patterns;
    }

    /** The scoring loops of `analyze`: every state starts at zero, and each
        state with patterns gets the match counts of its expressions. */
    method ScoreMessage(text: string) returns (scores: map<State, nat>)
      ensures scores == Scores(text, count)
    {
      scores := map[Neutral := 0, Concerned := 0, Celebratory := 0, Frustrated := 0];
      var i := 0;
      while i < |PatternStates|
        invariant 0 <= i <= |PatternStates|
        invariant scores.Keys == {Neutral, Concerned, Celebratory, Frustrated}
        invariant scores[Neutral] == 0
        invariant scores[Concerned] == (if i > 0 then Score(Concerned, text, count) else 0)
        invariant scores[Frustrated] == (if i > 1 then Score(Frustrated, text, count) else 0)
        invariant scores[Celebratory] == (if i > 2 then Score(Celebratory, text, count) else 0)
      {
        var st := PatternStates[i];
        scores := AddMatches(scores, st, compiledPatterns[st], text);
        i := i + 1;
      }
      forall s ensures s in scores && scores[s] == Score(s, text, count) {
        StateCases(s);
      }
      ScoresUnique(scores, text, count);
    }

    /** Returns the state and the directive for a message. */
    method Analyze(text: string) returns (state: State, modifier: string)
      ensures (state, modifier) == Classify(text, count)
    {
      if text == [] {
        return Neutral, EmptyTextModifier;
      }
      var scores := ScoreMessage(text);
      var maxState := FirstMax(StateOrder, scores);
      if scores[maxState] == 0 {
        maxState := Neutral;
      }
      return maxState, PersonaModifier(maxState);
    }
  }

  /** "I have a big problem with my server": one CONCERNED keyword ("problem"). */
  lemma ProblemIsConcerned(text: string, count: MatchCounter)
    requires text == "I have a big problem with my server"
    requires forall s, k :: 0 <= k < |Patterns(s)| ==>
      count(Regex(Patterns(s)[k], true), text) == (if s == Concerned && k == 0 then 1 else 0)
    ensures Classify(text, count).0 == Concerned
  {
    ScoresFrom(text, count, 1, 0, 0, 0, 0, 0);
  }

  /** "Thank you so much, it works perfectly!": two CELEBRATORY keywords ("Thank you",
      "works"); "perfectly" is not the word "perfect" and a single "!" is no run. */
  lemma ThanksIsCelebratory(text: string, count: MatchCounter)
    requires text == "Thank you so much, it works perfectly!"
    requires forall s, k :: 0 <= k < |Patterns(s)| ==>
      count(Regex(Patterns(s)[k], true), text) == (if s == Celebratory && k == 0 then 2 else 0)
    ensures Classify(text, count).0 == Celebratory
  {
    ScoresFrom(text, count, 0, 0, 0, 0, 2, 0);
  }

  /** "This is stupid, it keeps crashing!!": one FRUSTRATED keyword and one "!!" run. */
  lemma StupidIsFrustrated(text: string, count: MatchCounter)
    requires text == "This is stupid, it keeps crashing!!"
    requires forall s, k :: 0 <= k < |Patterns(s)| ==>
      count(Regex(Patterns(s)[k], true), text) == (if s == Frustrated then 1 else 0)
    ensures Classify(text, count).0 == Frustrated
  {
    ScoresFrom(text, count, 0, 0, 1, 1, 0, 0);
  }

  /** The scores, given the match count of each of the six expressions. */
  lemma ScoresFrom(text: string, count: MatchCounter, c0: nat, c1: nat, f0: nat, f1: nat, g0: nat, g1: nat)
    requires count(Regex(Patterns(Concerned)[0], true), text) == c0
    requires count(Regex(Patterns(Concerned)[1], true), text) == c1
    requires count(Regex(Patterns(Frustrated)[0], true), text) == f0
    requires count(Regex(Patterns(Frustrated)[1], true), text) == f1
    requires count(Regex(Patterns(Celebratory)[0], true), text) == g0
    requires count(Regex(Patterns(Celebratory)[1], true), text) == g1
    ensures Score(Concerned, text, count) == c0 + c1
    ensures Score(Frustrated, text, count) == f0 + f1
    ensures Score(Celebratory, text, count) == g0 + g1
  {
    ScoreOfPair(Concerned, text, count);
    ScoreOfPair(Frustrated, text, count);
    ScoreOfPair(Celebratory, text, count);
  }

  lemma ScoreOfPair(s: State, text: string, count: MatchCounter)
    requires s != Neutral
    ensures Score(s, text, count) == count(Regex(Patterns(s)[0], true), text) + count(Regex(Patterns(s)[1], true), text)
  {
    var rs := Compile(Patterns(s));
    assert s in CompiledPatterns() && CompiledPatterns()[s] == rs;
    assert |rs| == 2 && rs[0] == Regex(Patterns(s)[0], true) && rs[1] == Regex(Patterns(s)[1], true);
    assert rs[..|rs| - 1] == [rs[0]] && [rs[0]][..0] == [];
    assert SumCounts([rs[0]], text, count) == count(rs[0], text);
  }

  lemma StateCases(s: State)
    ensures s == Neutral || s == Concerned || s == Celebratory || s == Frustrated
    ensures s in StateOrder
  {
  }
}

=== FILE: memory.dfy ===
/**
 * The sliding-window conversation memory (`ContextManager`).
 *
 * The history is a list of role/content messages under a character budget of
 * four characters per token. When an added message pushes the total content
 * length over the budget, every message but the last two is replaced by one
 * `system` "bridge" message whose text names entities found in the evicted
 * messages. Entity extraction is a regular-expression `findall`, taken here as
 * a parameter, and the entities are collected in a Python `set`, whose
 * iteration order is taken as a parameter too.
 */
module Memory {
  import opened Text

  datatype Role = System | User | Assistant

  datatype Message = Message(role: Role, content: string)

  const DefaultMaxHistoryTokens: int := 1024
  const CharsPerToken: int := 4
  /** Messages kept verbatim when the history is compressed. */
  const KeepRecent: nat := 2
  /** Entities named in a bridge at most. */
  const MaxEntities: nat := 5

  const SummaryLead := "Context summary:"
  const DiscussedLead := "Context summary: User previously discussed "
  const NoEntitySummary := "Context summary: Previous conversation ended."

  /** Capitalised multi-word phrases such as "Database Connection". */
  const CapitalizedPhrase := Regex(@"\b([A-Z][a-z]+(?:\s[A-Z][a-z]+)+)\b", false)
  /** File-name-like terms such as "install.sh". */
  const CodeTerm := Regex(@"\b([\w\-\_\.]+\.[\w]+)\b", false)

  /** All matches of an expression in a text, in order. */
  type FindAll = (Regex, string) -> seq<string>

  /** The order in which a Python `set` of strings is iterated. */
  type Enumeration = set<string> -> seq<string>

  /** Every match of a regular expression is a piece of the searched text. */
  ghost predicate FindsSubstrings(findAll: FindAll) {
    forall r, s, k :: 0 <= k < |findAll(r, s)| ==> Contains(s, findAll(r, s)[k])
  }

  predicate Distinct(l: seq<string>) {
    forall i, j :: 0 <= i < j < |l| ==> l[i] != l[j]
  }

  /** `l` lists the elements of `S`, each once. */
  ghost predicate Lists(l: seq<string>, S: set<string>) {
    Distinct(l) && (forall x :: x in l <==> x in S)
  }

  /** Iterating a set visits each element once. */
  ghost predicate Enumerates(order: Enumeration) {
    forall S :: Lists(order(S), S)
  }

  function Contents(msgs: seq<Message>): (r: seq<string>)
    ensures |r| == |msgs|
    ensures forall k :: 0 <= k < |msgs| ==> r[k] == msgs[k].content
  {
    seq(|msgs|, k requires 0 <= k < |msgs| => msgs[k].content)
  }

  /** Total content length of a history, the quantity the budget limits. */
  function TotalChars(h: seq<Message>): nat
  {
    if h == [] then 0 else TotalChars(h[..|h| - 1]) + |h[|h| - 1].content|
  }

  /** Python's slice `l[:n]`. */
  function Take(l: seq<string>, n: nat): (r: seq<string>)
    ensures |r| == (if |l| < n then |l| else n)
    ensures r == l[..|r|]
  {
    if |l| <= n then l else l[..n]
  }

  /** The set of entities both regular expressions find in the text. */
  function Entities(text: string, findAll: FindAll): set<string>
  {
    set x | x in findAll(CapitalizedPhrase, text) + findAll(CodeTerm, text)
  }

  /** The text the bridge is extracted from: the evicted contents joined by spaces. */
  function EvictedText(evicted: seq<Message>): string {
    Join(Contents(evicted), " ")
  }

  /** The entities a bridge names: the first five in set-iteration order. */
  function ChosenEntities(evicted: seq<Message>, findAll: FindAll, order: Enumeration): seq<string>
  {
    Take(order(Entities(EvictedText(evicted), findAll)), MaxEntities)
  }

  /** The heuristic bridge summary of the evicted messages. */
  function BridgeSummary(evicted: seq<Message>, findAll: FindAll, order: Enumeration): (r: string)
    ensures StartsWith(r, SummaryLead)
    ensures r == NoEntitySummary <==> Entities(EvictedText(evicted), findAll) == {}
  {
    if Entities(EvictedText(evicted), findAll) != {} then
      var r := DiscussedLead + Join(ChosenEntities(evicted, findAll, order), ", ") + ".";
      assert r[17] == 'U' && NoEntitySummary[17] == 'P';
      assert r[..16] == DiscussedLead[..16];
      r
    else
      NoEntitySummary
  }

  /** Where a history of the given length is cut: all but the last `KeepRecent`
      messages are old (`l[:-2]`), the rest recent (`l[-2:]`). */
  function Cut(n: nat): (c: nat)
    ensures c <= n
  {
    if n > KeepRecent then n - KeepRecent else 0
  }

  /** The history after the window rule is applied to `h`. */
  function Enforced(h: seq<Message>, budget: int, findAll: FindAll, order: Enumeration): seq<Message>
  {
    var cut := Cut(|h|);
    if TotalChars(h) > budget && cut > 0 then
      [Message(System, BridgeSummary(h[..cut], findAll, order))] + h[cut..]
    else
      h
  }

  /** Under the budget, or with no more than two messages, the window rule
      changes nothing; over the budget with more than two messages, it leaves
      a `system` bridge followed by the last two messages in their order. */
  lemma EnforcedSpec(h: seq<Message>, budget: int, findAll: FindAll, order: Enumeration)
    ensures var r := Enforced(h, budget, findAll, order);
      && (TotalChars(h) <= budget || |h| <= KeepRecent ==> r == h)
      && (TotalChars(h) > budget && |h| > KeepRecent ==>
            && |r| == KeepRecent + 1
            && r[0].role == System
            && StartsWith(r[0].content, SummaryLead)
            && r[1..] == h[|h| - KeepRecent..]
            && r[0].content == BridgeSummary(h[..|h| - KeepRecent], findAll, order))
  {
  }

  /** After the window rule the history fits the budget or holds at most a bridge
      and two messages. */
  lemma WindowBound(h: seq<Message>, budget: int, findAll: FindAll, order: Enumeration)
    ensures var r := Enforced(h, budget, findAll, order);
      TotalChars(r) <= budget || |r| <= KeepRecent + 1
  {
  }

  /** The bridge itself is counted against the budget: a compressed history can
      stay over the budget even when its last two messages fit in it. */
  lemma BridgeCanExceedBudget(findAll: FindAll, order: Enumeration)
    ensures var h := [Message(User, "aaaaaaaaaaa"), Message(Assistant, "b"), Message(User, "c")];
      var r := Enforced(h, 10, findAll, order);
      && TotalChars(h[1..]) <= 10
      && TotalChars(r) > 10
  {
    var a, b, c := Message(User, "aaaaaaaaaaa"), Message(Assistant, "b"), Message(User, "c");
    TotalCharsSnoc([], b);
    TotalCharsSnoc([b], c);
    TotalCharsSnoc([], a);
    TotalCharsSnoc([a], b);
    TotalCharsSnoc([a, b], c);
    var h := [a, b, c];
    assert [] + [a] == [a] && [a] + [b] == [a, b] && [a, b] + [c] == h;
    assert [] + [b] == [b] && [b] + [c] == [b, c];
    assert TotalChars(h) == 13;
    assert h[1..] == [b, c];
    var bridge := Message(System, BridgeSummary([a], findAll, order));
    assert h[..1] == [a];
    var r := Enforced(h, 10, findAll, order);
    assert r == [bridge, b, c];
    TotalCharsSnoc([], bridge);
    TotalCharsSnoc([bridge], b);
    TotalCharsSnoc([bridge, b], c);
    assert [] + [bridge] == [bridge] && [bridge] + [b] == [bridge, b] && [bridge, b] + [c] == r;
    assert |bridge.content| >= |SummaryLead|;
  }

  lemma TotalCharsSnoc(h: seq<Message>, m: Message)
    ensures TotalChars(h + [m]) == TotalChars(h) + |m.content|
  {
    assert (h + [m])[..|h|] == h;
  }

  /** A list without duplicates has as many elements as the set of its elements. */
  lemma {:induction false} DistinctCard(l: seq<string>)
    requires Distinct(l)
    ensures |set x | x in l| == |l|
  {
    if l != [] {
      var t := l[1..];
      assert Distinct(t) by {
        forall i, j | 0 <= i < j < |t| ensures t[i] != t[j] {
          assert t[i] == l[i + 1] && t[j] == l[j + 1];
        }
      }
      DistinctCard(t);
      assert (set x | x in l) == {l[0]} + (set x | x in t);
      assert l[0] !in t by {
        forall k | 0 <= k < |t| ensures t[k] != l[0] {
          assert t[k] == l[k + 1];
        }
      }
    }
  }

  /** The bridge names min(5, number of entities) distinct entities, each one
      found by the regular expressions and so a piece of the evicted text. */
  lemma ChosenEntitiesSpec(evicted: seq<Message>, findAll: FindAll, order: Enumeration)
    requires Enumerates(order)
    ensures var E := Entities(EvictedText(evicted), findAll);
      var L := ChosenEntities(evicted, findAll, order);
      && |L| == (if |E| < MaxEntities then |E| else MaxEntities)
      && Distinct(L)
      && (forall x :: x in L ==> x in E)
      && (FindsSubstrings(findAll) ==> forall x :: x in L ==> Contains(EvictedText(evicted), x))
  {
    var text := EvictedText(evicted);
    var E := Entities(text, findAll);
    var l := order(E);
    assert Lists(l, E);
    DistinctCard(l);
    assert (set x | x in l) == E;
    var L := ChosenEntities(evicted, findAll, order);
    assert forall x :: x in L ==> x in l;
    if FindsSubstrings(findAll) {
      var m := findAll(CapitalizedPhrase, text) + findAll(CodeTerm, text);
      forall x | x in L ensures Contains(text, x) {
        var k :| 0 <= k < |m| && m[k] == x;
        if k < |findAll(CapitalizedPhrase, text)| {
          assert x == findAll(CapitalizedPhrase, text)[k];
        } else {
          assert x == findAll(CodeTerm, text)[k - |findAll(CapitalizedPhrase, text)|];
        }
      }
    }
  }

  /** The sliding-window memory. */
  class ContextManager {
    const systemPrompt: string
    /** The character budget: four characters per token. */
    const maxHistoryChars: int
    const findAll: FindAll
    const order: Enumeration
    var history: seq<Message>

    constructor (findAll: FindAll, order: Enumeration,
                 maxHistoryTokens: int := DefaultMaxHistoryTokens, systemPrompt: string := "")
      ensures this.systemPrompt == systemPrompt
      ensures maxHistoryChars == maxHistoryTokens * CharsPerToken
      ensures this.findAll == findAll && this.order == order
      ensures history == []
    {
      this.systemPrompt := systemPrompt;
      this.maxHistoryChars := maxHistoryTokens * CharsPerToken;
      this.findAll := findAll;
      this.order := order;
      history := [];
    }

    /** Every history this object can reach fits the budget or holds at most
        a bridge and the last two messages. */
    ghost predicate Windowed()
      reads this
    {
      TotalChars(history) <= maxHistoryChars || |history| <= KeepRecent + 1
    }

    /** Appends one message and applies the window rule. */
    method AddMessage(role: Role, content: string)
      modifies this
      ensures history == Enforced(old(history) + [Message(role, content)], maxHistoryChars, findAll, order)
      ensures Windowed()
    {
      history := history + [Message(role, content)];
      EnforceLimits();
    }

    /** Replaces all but the last two messages by a bridge when the history is
        over its budget. */
    method EnforceLimits()
      modifies this
      ensures history == Enforced(old(history), maxHistoryChars, findAll, order)
      ensures Windowed()
    {
      WindowBound(history, maxHistoryChars, findAll, order);
      var currentLen := 0;
      var i := 0;
      while i < |history|
        invariant 0 <= i <= |history|
        invariant currentLen == TotalChars(history[..i])
      {
        assert history[..i + 1][..i] == history[..i];
        currentLen := currentLen + |history[i].content|;
        i := i + 1;
      }
      assert history[..|history|] == history;
      if currentLen > maxHistoryChars {
        var cut := Cut(|history|);
        var recent := history[cut..];
        var oldMsgs := history[..cut];
        if oldMsgs != [] {
          var bridge := BridgeSummary(oldMsgs, findAll, order);
          history := [Message(System, bridge)] + recent;
        }
      }
    }

    /** The message list handed to the model: the system prompt, then the history. */
    function FullContext(): (r: seq<Message>)
      reads this
      ensures |r| == |history| + 1
      ensures r[0] == Message(System, systemPrompt) && r[1..] == history
    {
      [Message(System, systemPrompt)] + history
    }

    method Clear()
      modifies this
      ensures history == []
    {
      history := [];
    }
  }

  /** A 50-token memory given a 30-, a 13- and a 200-character message ends with
      a context of four entries: the system prompt, a bridge and the last two. */
  lemma SmallWindowScenario(findAll: FindAll, order: Enumeration)
    ensures var m1 := Message(User, "Hello, this is a test message.");
      var m2 := Message(Assistant, "I understand.");
      var m3 := Message(User, seq(200, _ => 'A'));
      var budget := 50 * CharsPerToken;
      var h := Enforced(Enforced(Enforced([m1], budget, findAll, order) + [m2], budget, findAll, order)
                        + [m3], budget, findAll, order);
      && |h| + 1 < 5
      && h[0].role == System && Contains(h[0].content, SummaryLead)
      && h[1..] == [m2, m3]
  {
    var m1 := Message(User, "Hello, this is a test message.");
    var m2 := Message(Assistant, "I understand.");
    var m3 := Message(User, seq(200, _ => 'A'));
    var budget := 50 * CharsPerToken;
    assert TotalChars([m1]) == 30 by {
      assert [m1][..0] == [];
    }
    var h1 := Enforced([m1], budget, findAll, order);
    assert h1 == [m1];
    var h2 := Enforced(h1 + [m2], budget, findAll, order);
    assert TotalChars([m1, m2]) == 43 by {
      assert [m1, m2][..1] == [m1];
      assert [m1][..0] == [];
    }
    assert h1 + [m2] == [m1, m2];
    assert h2 == [m1, m2];
    assert TotalChars([m1, m2, m3]) == 243 by {
      assert [m1, m2, m3][..2] == [m1, m2];
    }
    assert h2 + [m3] == [m1, m2, m3];
    var h := Enforced(h2 + [m3], budget, findAll, order);
    assert h == [Message(System, BridgeSummary([m1], findAll, order)), m2, m3] by {
      assert [m1, m2, m3][..1] == [m1];
      assert [m1, m2, m3][1..] == [m2, m3];
    }
    StartsWithContains(h[0].content, SummaryLead);
  }
}

=== FILE: postprocess.dfy ===
/**
 * The rule-based response polisher (`PostProcessor.process`).
 *
 * A reply is stripped, gets an empathy sentence in front when its first
 * sentence has none and the directive asks for one, and then every numbered
 * list item written without a space ("1.Item") gets one ("1. Item").
 */
module PostProcessing {
  import opened Text

  /** Phrases that already make the first sentence empathetic, in lower case. */
  const EmpathyMarkers: seq<string> := ["i understand", "i am sorry", "i apologize", "great news", "glad to hear"]
  const ConcernedPrefix := "I understand the issue. "
  const FrustratedPrefix := "I apologize for the inconvenience. "

  /** The first sentence (everything before the first period), in lower case. */
  function FirstSentence(text: string): string {
    Lower(BeforeFirst(text, '.'))
  }

  /** Some empathy marker occurs in the first sentence. */
  predicate HasEmpathy(text: string) {
    exists k :: 0 <= k < |EmpathyMarkers| && Contains(FirstSentence(text), EmpathyMarkers[k])
  }

  /** The sentence put in front of a stripped reply. */
  function EmpathyPrefix(text: string, directive: string): string {
    if HasEmpathy(text) then ""
    else if Contains(Lower(directive), "concerned") then ConcernedPrefix
    else if Contains(Lower(directive), "frustrated") then FrustratedPrefix
    else ""
  }

  /** The characters `[A-Z|a-z]` of the look-ahead. */
  predicate IsListChar(c: char) {
    IsUpper(c) || IsLowerLetter(c) || c == '|'
  }

  /** A digit, a period and a list character start at `i`. */
  predicate ListGapAt(s: string, i: nat) {
    i + 2 < |s| && IsDigit(s[i]) && s[i + 1] == '.' && IsListChar(s[i + 2])
  }

  predicate NoListGap(s: string) {
    forall i: nat :: i < |s| ==> !ListGapAt(s, i)
  }

  predicate NoDigit(s: string) {
    forall k :: 0 <= k < |s| ==> !IsDigit(s[k])
  }

  /** Every digit followed by a period and a list character gets a space after the period, scanning left to right. */
  function Spaced(s: string): string
    decreases |s|
  {
    if |s| < 3 then s
    else if ListGapAt(s, 0) then [s[0], '.', ' '] + Spaced(s[2..])
    else [s[0]] + Spaced(s[1..])
  }

  /** The space, if any, that goes between `s` and a following character `c`:
      one exactly when `s` ends in a digit and a period and `c` is a list character. */
  function GapBefore(s: string, c: char): string {
    if |s| >= 2 && IsDigit(s[|s| - 2]) && s[|s| - 1] == '.' && IsListChar(c) then " " else ""
  }

  /** Reference definition of the list spacing, read from the right: every
      character is copied, with a space before each one that follows a digit
      and a period and is a list character. */
  function SpacedRef(s: string): string
    decreases |s|
  {
    if s == [] then [] else SpacedRef(s[..|s| - 1]) + GapBefore(s[..|s| - 1], s[|s| - 1]) + [s[|s| - 1]]
  }

  /** What `process` returns. */
  function Process(text: string, directive: string): string {
    var t := Strip(text);
    Spaced(EmpathyPrefix(t, directive) + t)
  }

  /** Appending one character to the input of the list spacing appends it to
      the output, after a space exactly when it completes a list gap. */
  lemma {:induction false} SpacedSnoc(s: string, c: char)
    ensures Spaced(s + [c]) == Spaced(s) + GapBefore(s, c) + [c]
    decreases |s|
  {
    var t := s + [c];
    if |s| < 2 {
      assert Spaced(t) == t;
    } else if |s| == 2 {
      assert t == [s[0], s[1], c];
      assert t[1..] == [s[1], c];
      assert t[2..] == [c];
    } else if ListGapAt(s, 0) {
      SpacedSnocGap(s, c);
    } else {
      SpacedSnocPlain(s, c);
    }
  }

  lemma {:induction false} SpacedSnocGap(s: string, c: char)
    requires |s| >= 3 && ListGapAt(s, 0)
    ensures Spaced(s + [c]) == Spaced(s) + GapBefore(s, c) + [c]
    decreases |s|, 0
  {
    var t := s + [c];
    assert ListGapAt(t, 0);
    assert t[2..] == s[2..] + [c];
    SpacedSnoc(s[2..], c);
    assert GapBefore(s[2..], c) == GapBefore(s, c) by {
      if |s| > 3 {
        assert s[2..][|s[2..]| - 2] == s[|s| - 2];
        assert s[2..][|s[2..]| - 1] == s[|s| - 1];
      }
    }
  }

  lemma {:induction false} SpacedSnocPlain(s: string, c: char)
    requires |s| >= 3 && !ListGapAt(s, 0)
    ensures Spaced(s + [c]) == Spaced(s) + GapBefore(s, c) + [c]
    decreases |s|, 0
  {
    var t := s + [c];
    assert !ListGapAt(t, 0);
    assert t[1..] == s[1..] + [c];
    SpacedSnoc(s[1..], c);
    assert s[1..][|s[1..]| - 2] == s[|s| - 2];
    assert s[1..][|s[1..]| - 1] == s[|s| - 1];
    assert GapBefore(s[1..], c) == GapBefore(s, c);
    assert Spaced(t) == [s[0]] + Spaced(t[1..]);
    assert Spaced(s) == [s[0]] + Spaced(s[1..]);
  }

  /** The list spacing agrees with its reference definition. */
  lemma {:induction false} SpacedIsRef(s: string)
    ensures Spaced(s) == SpacedRef(s)
    decreases |s|
  {
    if s != [] {
      var p := s[..|s| - 1];
      SpacedIsRef(p);
      SpacedSnoc(p, s[|s| - 1]);
      assert p + [s[|s| - 1]] == s;
    }
  }

  /** The list spacing keeps the first and the last character, and the second
      one when the first is not a digit: a space only ever goes between a
      period and a following character. */
  lemma {:induction false} SpacedKeepsEnds(s: string)
    ensures var r := Spaced(s);
      && (s != [] ==> r != [] && r[0] == s[0] && r[|r| - 1] == s[|s| - 1])
      && (|s| >= 2 && !IsDigit(s[0]) ==> |r| >= 2 && r[1] == s[1])
    decreases |s|
  {
    if |s| >= 3 {
      if ListGapAt(s, 0) {
        SpacedKeepsEnds(s[2..]);
      } else {
        SpacedKeepsEnds(s[1..]);
      }
    }
  }

  /** Text without a list gap is left as it is. */
  lemma {:induction false} SpacedFixpoint(s: string)
    requires NoListGap(s)
    ensures Spaced(s) == s
    decreases |s|
  {
    if |s| >= 3 {
      assert !ListGapAt(s, 0);
      assert NoListGap(s[1..]) by {
        forall i: nat | i < |s[1..]| ensures !ListGapAt(s[1..], i) {
          assert !ListGapAt(s, i + 1);
        }
      }
      SpacedFixpoint(s[1..]);
    }
  }

  /** The list spacing leaves no list gap behind. */
  lemma {:induction false} SpacedNoListGap(s: string)
    ensures NoListGap(Spaced(s))
    decreases |s|
  {
    var r := Spaced(s);
    if |s| < 3 {
      forall i: nat | i < |s| ensures !ListGapAt(s, i) {
      }
    } else if ListGapAt(s, 0) {
      var rest := Spaced(s[2..]);
      SpacedNoListGap(s[2..]);
      assert r == [s[0], '.', ' '] + rest;
      forall i: nat | i < |r| ensures !ListGapAt(r, i) {
        if i >= 3 {
          assert r[i..] == rest[i - 3..];
          assert !ListGapAt(rest, i - 3);
        }
      }
    } else {
      var rest := Spaced(s[1..]);
      SpacedNoListGap(s[1..]);
      SpacedKeepsEnds(s[1..]);
      assert r == [s[0]] + rest;
      forall i: nat | i < |r| ensures !ListGapAt(r, i) {
        if i >= 1 {
          assert !ListGapAt(rest, i - 1);
        } else if IsDigit(s[0]) && s[1] == '.' {
          assert rest[0] == '.' && rest[1] == s[2];
        }
      }
    }
  }

  /** The list spacing is idempotent. */
  lemma SpacedIdempotent(s: string)
    ensures Spaced(Spaced(s)) == Spaced(s)
  {
    SpacedNoListGap(s);
    SpacedFixpoint(Spaced(s));
  }

  /** The list spacing only ever adds characters after a period, so the text
      before the first period is unchanged. */
  lemma {:induction false} SpacedFirstSentence(s: string)
    ensures BeforeFirst(Spaced(s), '.') == BeforeFirst(s, '.')
    decreases |s|
  {
    if |s| >= 3 {
      var r := Spaced(s);
      if ListGapAt(s, 0) {
        var rest := ['.', ' '] + Spaced(s[2..]);
        assert r == [s[0]] + rest;
        BeforeFirstCons(s[0], rest, '.');
        BeforeFirstCons(s[0], s[1..], '.');
        assert s == [s[0]] + s[1..];
      } else {
        SpacedFirstSentence(s[1..]);
        if s[0] != '.' {
          BeforeFirstCons(s[0], Spaced(s[1..]), '.');
          BeforeFirstCons(s[0], s[1..], '.');
          assert s == [s[0]] + s[1..];
        }
      }
    }
  }

  /** A digit-free lead is copied unchanged in front of the spaced rest. */
  lemma {:induction false} SpacedAfterPlainLead(a: string, b: string)
    requires NoDigit(a)
    ensures Spaced(a + b) == a + Spaced(b)
    decreases |a|
  {
    if a == [] {
      assert a + b == b;
    } else {
      assert NoDigit(a[1..]) by {
        forall k | 0 <= k < |a[1..]| ensures !IsDigit(a[1..][k]) {
          assert a[1..][k] == a[k + 1];
        }
      }
      SpacedAfterPlainLead(a[1..], b);
      assert a + b == [a[0]] + (a[1..] + b);
      SpacedCons(a[0], a[1..] + b);
      assert [a[0]] + (a[1..] + Spaced(b)) == a + Spaced(b);
    }
  }

  /** A character that is not a digit never starts a list gap, so it is copied as it is. */
  lemma SpacedCons(c: char, t: string)
    requires !IsDigit(c)
    ensures Spaced([c] + t) == [c] + Spaced(t)
  {
    var s := [c] + t;
    assert s[1..] == t;
    if |s| < 3 {
      assert Spaced(t) == t;
    }
  }

  /** The injected sentence is one of the two prefixes or nothing. */
  lemma EmpathyPrefixCases(text: string, directive: string)
    ensures var p := EmpathyPrefix(text, directive);
      p == [] || p == ConcernedPrefix || p == FrustratedPrefix
  {
  }

  lemma PrefixesHaveNoDigit()
    ensures NoDigit(ConcernedPrefix) && NoDigit(FrustratedPrefix)
  {
    ConcernedPrefixNoDigit();
    FrustratedPrefixNoDigit();
  }

  lemma ConcernedPrefixNoDigit()
    ensures NoDigit(ConcernedPrefix)
  {
  }

  lemma FrustratedPrefixNoDigit()
    ensures NoDigit(FrustratedPrefix)
  {
  }

  /** The first sentence of a reply behind the concerned sentence is that sentence. */
  lemma ConcernedFirstSentence(rest: string)
    ensures StartsWith(FirstSentence(ConcernedPrefix + rest), "i understand")
  {
    assert ConcernedPrefix + rest == "I understand the issue" + ['.'] + (" " + rest);
    ConcernedSentence(" " + rest);
  }

  lemma ConcernedSentence(rest: string)
    ensures StartsWith(FirstSentence("I understand the issue" + ['.'] + rest), "i understand")
  {
    var head := "I understand the issue";
    BeforeFirstOfJoin(head, '.', rest);
    ConcernedHeadLower();
  }

  lemma ConcernedHeadLower()
    ensures StartsWith(Lower("I understand the issue"), "i understand")
  {
    LowerAppend("I understand", " the issue");
    assert "I understand" + " the issue" == "I understand the issue";
    assert Lower("I understand") == "i understand";
  }

  /** The first sentence of a reply behind the frustrated sentence is that sentence. */
  lemma FrustratedFirstSentence(rest: string)
    ensures StartsWith(FirstSentence(FrustratedPrefix + rest), "i apologize")
  {
    var head := "I apologize for the inconvenience";
    assert FrustratedPrefix + rest == head + ['.'] + (" " + rest);
    BeforeFirstOfJoin(head, '.', " " + rest);
    assert FirstSentence(FrustratedPrefix + rest) == Lower(head);
    FrustratedHeadLower();
  }

  lemma FrustratedHeadLower()
    ensures StartsWith(Lower("I apologize for the inconvenience"), "i apologize")
  {
    LowerAppend("I apologize", " for the inconvenience");
    assert "I apologize" + " for the inconvenience" == "I apologize for the inconvenience";
    assert Lower("I apologize") == "i apologize";
  }

  /** A reply that starts with either injected sentence has an empathy marker
      in its first sentence. */
  lemma PrefixIsEmpathetic(p: string, rest: string)
    requires p == ConcernedPrefix || p == FrustratedPrefix
    ensures HasEmpathy(p + rest)
  {
    var k := if p == ConcernedPrefix then 0 else 2;
    if p == ConcernedPrefix {
      ConcernedFirstSentence(rest);
    } else {
      FrustratedFirstSentence(rest);
    }
    assert EmpathyMarkers[k] == (if k == 0 then "i understand" else "i apologize");
    StartsWithContains(FirstSentence(p + rest), EmpathyMarkers[k]);
  }

  /** The result of `process` on a reply that is not blank neither starts nor
      ends with whitespace. */
  lemma ProcessStripped(text: string, directive: string)
    requires Strip(text) != []
    ensures var r := Process(text, directive);
      r != [] && !IsSpace(r[0]) && !IsSpace(r[|r| - 1])
  {
    var t := Strip(text);
    StripEnds(text);
    var p := EmpathyPrefix(t, directive);
    EmpathyPrefixCases(t, directive);
    LeadKeepsEnds(p, t);
    SpacedStripped(p + t);
  }

  lemma SpacedStripped(u: string)
    requires u != [] && !IsSpace(u[0]) && !IsSpace(u[|u| - 1])
    ensures var r := Spaced(u);
      r != [] && !IsSpace(r[0]) && !IsSpace(r[|r| - 1])
  {
    SpacedKeepsEnds(u);
  }

  lemma LeadKeepsEnds(p: string, t: string)
    requires p == [] || p == ConcernedPrefix || p == FrustratedPrefix
    requires t != [] && !IsSpace(t[0]) && !IsSpace(t[|t| - 1])
    ensures var u := p + t;
      u != [] && !IsSpace(u[0]) && !IsSpace(u[|u| - 1])
  {
    var u := p + t;
    assert u[|u| - 1] == t[|t| - 1];
    if p != [] {
      assert u[0] == p[0] == 'I';
    }
  }

  /** The injected sentence: none when the first sentence already shows empathy,
      otherwise the one the directive asks for, and the rest of the reply is
      the stripped text with its list items spaced. */
  lemma ProcessPrefix(text: string, directive: string)
    ensures var t := Strip(text);
      var r := Process(text, directive);
      && (HasEmpathy(t) ==> r == Spaced(t))
      && (!HasEmpathy(t) && Contains(Lower(directive), "concerned") ==> r == ConcernedPrefix + Spaced(t))
      && (!HasEmpathy(t) && !Contains(Lower(directive), "concerned") && Contains(Lower(directive), "frustrated") ==>
            r == FrustratedPrefix + Spaced(t))
      && (!Contains(Lower(directive), "concerned") && !Contains(Lower(directive), "frustrated") ==> r == Spaced(t))
  {
    var t := Strip(text);
    PrefixesHaveNoDigit();
    SpacedAfterPlainLead(EmpathyPrefix(t, directive), t);
  }

  /** Processing a processed reply changes nothing, so the empathy sentence is
      never injected twice, provided the reply is not blank. */
  lemma ProcessIdempotent(text: string, directive: string)
    requires Strip(text) != []
    ensures Process(Process(text, directive), directive) == Process(text, directive)
  {
    var t := Strip(text);
    var p := EmpathyPrefix(t, directive);
    var r := Process(text, directive);
    PrefixesHaveNoDigit();
    SpacedAfterPlainLead(p, t);
    assert r == p + Spaced(t);
    ProcessStripped(text, directive);
    StripUnchanged(r);
    if p == "" {
      SpacedFirstSentence(t);
      assert r == Spaced(t);
      assert FirstSentence(r) == FirstSentence(t);
    } else {
      PrefixIsEmpathetic(p, Spaced(t));
    }
    assert EmpathyPrefix(r, directive) == "";
    assert [] + r == r;
    SpacedNoListGap(p + t);
    SpacedFixpoint(r);
  }

  /** A blank reply with a "concerned" directive becomes the bare prefix,
      trailing space included, and processing that again drops the space:
      the idempotence above needs a reply that is not blank. */
  lemma BlankReplyNotIdempotent()
    ensures Process("", "concerned") == ConcernedPrefix
    ensures Process(ConcernedPrefix, "concerned") == "I understand the issue."
  {
    BlankReplyGetsPrefix();
    PrefixReprocessed();
  }

  lemma BlankReplyGetsPrefix()
    ensures Process("", "concerned") == ConcernedPrefix
  {
    assert Strip("") == "";
    NoMarkerWithoutA("");
    ConcernedDirective();
    assert EmpathyPrefix("", "concerned") == ConcernedPrefix;
    assert ConcernedPrefix + "" == ConcernedPrefix;
    PrefixesHaveNoDigit();
    SpacedAfterPlainLead(ConcernedPrefix, "");
  }

  lemma PrefixReprocessed()
    ensures Process(ConcernedPrefix, "concerned") == "I understand the issue."
  {
    var s := "I understand the issue.";
    StripConcernedPrefix();
    SentenceIsEmpathetic();
    assert EmpathyPrefix(s, "concerned") == [];
    NoDigitSentence();
    SpacedAfterPlainLead(s, "");
    assert [] + s == s && s + "" == s;
  }

  lemma SentenceIsEmpathetic()
    ensures HasEmpathy("I understand the issue.")
  {
    var s := "I understand the issue.";
    ConcernedSentence("");
    assert s == "I understand the issue" + ['.'] + "";
    StartsWithContains(FirstSentence(s), EmpathyMarkers[0]);
  }

  lemma NoDigitSentence()
    ensures NoDigit("I understand the issue.")
  {
  }

  lemma StripConcernedPrefix()
    ensures Strip(ConcernedPrefix) == "I understand the issue."
  {
    var s := "I understand the issue.";
    assert ConcernedPrefix == s + [' '];
    assert s[0] == 'I' && s[|s| - 1] == '.';
    StripTrailingSpace(s, ' ');
  }

  /** Stripping a word-bounded text followed by one whitespace character drops just that character. */
  lemma StripTrailingSpace(s: string, c: char)
    requires s != [] && !IsSpace(s[0]) && !IsSpace(s[|s| - 1]) && IsSpace(c)
    ensures Strip(s + [c]) == s
  {
    var t := s + [c];
    assert LeadingSpaces(t) == 0;
    assert TrimStart(t) == t;
    assert t[..|t| - 1] == s;
    assert TrailingSpaces(s) == 0;
    assert TrailingSpaces(t) == 1;
  }

  lemma ConcernedDirective()
    ensures Contains(Lower("concerned"), "concerned")
  {
    assert Lower("concerned") == "concerned";
    StartsWithContains("concerned", "concerned");
  }

  /** Every empathy marker holds an 'a', so text without one holds no marker. */
  lemma NoMarkerWithoutA(s: string)
    requires 'a' !in s
    ensures forall k :: 0 <= k < |EmpathyMarkers| ==> !Contains(s, EmpathyMarkers[k])
  {
    NotContainsByChar(s, EmpathyMarkers[0], 9);
    NotContainsByChar(s, EmpathyMarkers[1], 2);
    NotContainsByChar(s, EmpathyMarkers[2], 2);
    NotContainsByChar(s, EmpathyMarkers[3], 3);
    NotContainsByChar(s, EmpathyMarkers[4], 2);
  }

  /** "The server is down." with a "concerned" directive gets the concerned
      sentence in front, exactly once; a second pass leaves it so. */
  lemma ServerDownScenario()
    ensures Process("The server is down.", "concerned") == "I understand the issue. The server is down."
    ensures var r := Process("The server is down.", "concerned");
      OccursAt(r, "I understand the issue", 0) && forall i: nat :: 0 < i ==> !OccursAt(r, "I understand the issue", i)
    ensures Process(Process("The server is down.", "concerned"), "concerned") == Process("The server is down.", "concerned")
  {
    var t := "The server is down.";
    ServerDownHasNoEmpathy();
    ConcernedDirective();
    assert t[0] == 'T' && t[|t| - 1] == '.';
    StripUnchanged(t);
    assert EmpathyPrefix(t, "concerned") == ConcernedPrefix;
    ServerDownUnspaced();
    MarkerOnce();
    ProcessIdempotent(t, "concerned");
  }

  lemma ServerDownHasNoEmpathy()
    ensures !HasEmpathy("The server is down.")
  {
    var head := "The server is down";
    ServerDownSentence();
    ServerDownHeadHasNoA();
    AbsentFromLower(head, 'a');
    NoEmpathyWithoutA("The server is down.");
  }

  lemma ServerDownSentence()
    ensures FirstSentence("The server is down.") == Lower("The server is down")
  {
    var head := "The server is down";
    assert "The server is down." == head + ['.'] + "";
    BeforeFirstOfJoin(head, '.', "");
  }

  lemma ServerDownHeadHasNoA()
    ensures 'a' !in "The server is down" && 'A' !in "The server is down"
  {
  }

  /** A first sentence without an 'a' holds no empathy marker. */
  lemma NoEmpathyWithoutA(text: string)
    requires 'a' !in FirstSentence(text)
    ensures !HasEmpathy(text)
  {
    NoMarkerWithoutA(FirstSentence(text));
  }

  lemma ServerDownUnspaced()
    ensures Spaced(ConcernedPrefix + "The server is down.") == "I understand the issue. The server is down."
  {
    var t := "The server is down.";
    ServerDownNoDigit();
    PrefixesHaveNoDigit();
    SpacedAfterPlainLead(ConcernedPrefix, t);
    NoDigitNoGap(t);
    SpacedFixpoint(t);
    ConcatServerDown();
  }

  lemma ServerDownNoDigit()
    ensures NoDigit("The server is down.")
  {
  }

  lemma ConcatServerDown()
    ensures ConcernedPrefix + "The server is down." == "I understand the issue. The server is down."
  {
  }

  lemma NoDigitNoGap(s: string)
    requires NoDigit(s)
    ensures NoListGap(s)
  {
    forall i: nat | i < |s| ensures !ListGapAt(s, i) {
    }
  }

  /** A text whose first character opens the marker and never appears again
      holds the marker at the start only. */
  lemma OnlyAtStart(r: string, marker: string)
    requires 0 < |marker| <= |r| && r[..|marker|] == marker && marker[0] !in r[1..]
    ensures OccursAt(r, marker, 0) && forall i: nat :: 0 < i ==> !OccursAt(r, marker, i)
  {
    forall i: nat | 0 < i ensures !OccursAt(r, marker, i) {
      if i + |marker| <= |r| {
        assert r[i..i + |marker|][0] == r[i] == r[1..][i - 1];
      }
    }
  }

  lemma MarkerOnce()
    ensures var r := "I understand the issue. The server is down.";
      OccursAt(r, "I understand the issue", 0) && forall i: nat :: 0 < i ==> !OccursAt(r, "I understand the issue", i)
  {
    var rest := " understand the issue";
    var after := ". The server is down.";
    ServerDownReplyParts();
    LeadOnce('I', rest, after);
    OnlyAtStart(['I'] + rest + after, ['I'] + rest);
  }

  lemma ServerDownReplyParts()
    ensures "I understand the issue. The server is down." == ['I'] + " understand the issue" + ". The server is down."
    ensures "I understand the issue" == ['I'] + " understand the issue"
    ensures 'I' !in " understand the issue" && 'I' !in ". The server is down."
  {
    ServerDownReplyConcat();
    NoCapitalI(" understand the issue");
    NoCapitalI(". The server is down.");
  }

  lemma ServerDownReplyConcat()
    ensures "I understand the issue. The server is down." == ['I'] + " understand the issue" + ". The server is down."
  {
  }

  lemma NoCapitalI(s: string)
    requires forall k :: 0 <= k < |s| ==> s[k] != 'I'
    ensures 'I' !in s
  {
  }

  lemma LeadOnce(c: char, a: string, b: string)
    requires c !in a && c !in b
    ensures var r := [c] + a + b; 1 + |a| <= |r| && r[..1 + |a|] == [c] + a && c !in r[1..]
  {
    var r := [c] + a + b;
    assert r[1..] == a + b;
  }
}

=== FILE: retrieval.dfy ===
/**
 * The retrieval engine: how a user query becomes an FTS5 prefix-phrase query,
 * how the ranked rows become results, and how entries are inserted.
 * The SQLite store, its FTS5 tokeniser and the bm25 ranking are one opaque
 * matcher over the stored entries.
 */
module Retrieval {
  import opened Text

  /** One row of the `knowledge` table. */
  datatype Entry = Entry(id: nat, question: string, answer: string, source: string)

  /** One search result: the dict with keys question, answer and source. */
  datatype Doc = Doc(question: string, answer: string, source: string)

  /** What the database hands back for a MATCH query: the joined rows in
      ranking order, a syntax (operational) error, or any other failure. */
  datatype Fetch = Fetched(rows: seq<Entry>) | OperationalError | OtherError

  /** FTS5 MATCH joined with the table and ordered by bm25, before LIMIT. */
  type Matcher = (seq<Entry>, string) -> Fetch

  const DefaultLimit := 3
  const DefaultSource := "manual"

  predicate IsQuote(c: char) { c == '\'' || c == '"' }

  /** Every quote, single or double, becomes a space. */
  function CleanQuery(q: string): string {
    ReplaceChar(ReplaceChar(q, '\'', ' '), '"', ' ')
  }

  /** A prefix phrase: the token in double quotes, then a star. */
  function Phrase(token: string): string {
    ['"'] + token + ['"', '*']
  }

  function Phrases(tokens: seq<string>): (r: seq<string>)
    ensures |r| == |tokens|
  {
    seq(|tokens|, k requires 0 <= k < |tokens| => Phrase(tokens[k]))
  }

  /** One prefix phrase per whitespace token of the cleaned query, joined by single spaces. */
  function FtsQuery(query: string): string {
    Join(Phrases(Words(CleanQuery(query))), " ")
  }

  /** The token inside a prefix phrase: the inverse of `Phrase`. */
  function Unphrase(p: string): (r: Option<string>)
  {
    if |p| >= 3 && p[0] == '"' && p[|p| - 2] == '"' && p[|p| - 1] == '*' then Some(p[1..|p| - 2]) else None
  }

  /** Each word of an FTS query read back as a phrase. */
  function Unphrased(ps: seq<string>): (r: seq<Option<string>>)
    ensures |r| == |ps|
  {
    seq(|ps|, k requires 0 <= k < |ps| => Unphrase(ps[k]))
  }

  /** Every quote becomes a space and every other character stays where it was. */
  lemma CleanQuerySpec(q: string)
    ensures var r := CleanQuery(q);
      |r| == |q|
      && (forall k :: 0 <= k < |q| ==> (IsQuote(q[k]) ==> r[k] == ' ') && (!IsQuote(q[k]) ==> r[k] == q[k]))
      && '\'' !in r && '"' !in r
  {
    var r := CleanQuery(q);
    forall k | 0 <= k < |r| ensures r[k] != '\'' && r[k] != '"' {
    }
  }

  /** Cleaning a clean query changes nothing. */
  lemma CleanQueryIdempotent(q: string)
    ensures CleanQuery(CleanQuery(q)) == CleanQuery(q)
  {
    CleanQuerySpec(q);
    CleanQuerySpec(CleanQuery(q));
  }

  lemma PhraseIsWord(token: string)
    requires token != [] && NoSpace(token)
    ensures Phrase(token) != [] && NoSpace(Phrase(token))
  {
    var p := Phrase(token);
    forall k | 0 <= k < |p| ensures !IsSpace(p[k]) {
      if 0 < k < |p| - 2 {
        assert p[k] == token[k - 1];
      }
    }
  }

  /** Reading a phrase back gives its token. */
  lemma UnphrasePhrase(token: string)
    ensures Unphrase(Phrase(token)) == Some(token)
  {
    var p := Phrase(token);
    assert p[1..|p| - 2] == token;
  }

  lemma PhrasesAreWords(tokens: seq<string>)
    requires AllWords(tokens)
    ensures AllWords(Phrases(tokens))
  {
    forall k | 0 <= k < |tokens| ensures Phrases(tokens)[k] != [] && NoSpace(Phrases(tokens)[k]) {
      PhraseIsWord(tokens[k]);
    }
  }

  /** Prefix phrases of words joined by single spaces split back into those phrases. */
  lemma WordsOfPhrases(tokens: seq<string>)
    requires AllWords(tokens)
    ensures Words(Join(Phrases(tokens), " ")) == Phrases(tokens)
  {
    PhrasesAreWords(tokens);
    WordsOfJoin(Phrases(tokens));
  }

  lemma UnphrasedPhrases(tokens: seq<string>)
    ensures var u := Unphrased(Phrases(tokens));
      |u| == |tokens| && forall k :: 0 <= k < |tokens| ==> u[k] == Some(tokens[k])
  {
    forall k | 0 <= k < |tokens| ensures Unphrased(Phrases(tokens))[k] == Some(tokens[k]) {
      UnphrasePhrase(tokens[k]);
    }
  }

  /** The FTS query holds one prefix phrase per whitespace token of the
      cleaned query, in the same order, separated by single spaces: splitting
      it and reading each phrase back gives exactly the tokens. */
  lemma FtsQueryRoundTrip(query: string)
    ensures var tokens := Words(CleanQuery(query));
      var u := Unphrased(Words(FtsQuery(query)));
      Words(FtsQuery(query)) == Phrases(tokens)
      && |u| == |tokens| && forall k :: 0 <= k < |tokens| ==> u[k] == Some(tokens[k])
  {
    var tokens := Words(CleanQuery(query));
    WordsAreWords(CleanQuery(query));
    WordsOfPhrases(tokens);
    UnphrasedPhrases(tokens);
  }

  /** No token holds a quote, so each phrase has exactly its two delimiting quotes. */
  lemma TokensHaveNoQuote(query: string)
    ensures var tokens := Words(CleanQuery(query));
      forall k :: 0 <= k < |tokens| ==> '\'' !in tokens[k] && '"' !in tokens[k]
  {
    CleanQuerySpec(query);
    WordsWithout(CleanQuery(query), '\'');
    WordsWithout(CleanQuery(query), '"');
  }

  lemma JoinOfNonEmpty(parts: seq<string>, sep: string)
    requires parts != [] && parts[0] != []
    ensures Join(parts, sep) != []
  {
    if |parts| > 1 {
      JoinCons(parts, sep);
    }
  }

  lemma JoinPhrasesEmpty(tokens: seq<string>)
    ensures Join(Phrases(tokens), " ") == [] <==> tokens == []
  {
    if tokens != [] {
      assert Phrases(tokens)[0] == Phrase(tokens[0]);
      JoinOfNonEmpty(Phrases(tokens), " ");
    }
  }

  /** The cleaned query is all whitespace exactly when the query is all
      whitespace and quotes. */
  lemma CleanAllSpace(query: string)
    ensures AllSpace(CleanQuery(query)) <==> forall k :: 0 <= k < |query| ==> IsSpace(query[k]) || IsQuote(query[k])
  {
    var c := CleanQuery(query);
    CleanQuerySpec(query);
    if AllSpace(c) {
      forall k | 0 <= k < |query| ensures IsSpace(query[k]) || IsQuote(query[k]) {
        assert IsSpace(c[k]);
      }
    } else {
      var j :| 0 <= j < |c| && !IsSpace(c[j]);
      assert !IsSpace(query[j]) && !IsQuote(query[j]);
    }
  }

  /** The FTS query is empty exactly when the user query holds nothing but
      whitespace and quotes. */
  lemma FtsQueryEmpty(query: string)
    ensures FtsQuery(query) == [] <==> forall k :: 0 <= k < |query| ==> IsSpace(query[k]) || IsQuote(query[k])
  {
    var c := CleanQuery(query);
    JoinPhrasesEmpty(Words(c));
    WordsEmpty(c);
    CleanAllSpace(query);
  }

  lemma CleanWithoutQuotes(q: string)
    requires forall k :: 0 <= k < |q| ==> !IsQuote(q[k])
    ensures CleanQuery(q) == q
  {
    CleanQuerySpec(q);
  }

  /** A query that is one quote-free word becomes that word's prefix phrase. */
  lemma SingleWordQuery(w: string)
    requires w != [] && NoSpace(w) && forall k :: 0 <= k < |w| ==> !IsQuote(w[k])
    ensures FtsQuery(w) == Phrase(w)
  {
    CleanWithoutQuotes(w);
    WordsOfJoin([w]);
    assert Phrases([w]) == [Phrase(w)];
  }

  /** The query of the knowledge-base test. */
  lemma NeuroLiteQuery()
    ensures FtsQuery("Neuro-Lite") == "\"Neuro-Lite\"*"
  {
    NeuroLiteIsWord();
    SingleWordQuery("Neuro-Lite");
    NeuroLitePhrase();
  }

  lemma NeuroLiteIsWord()
    ensures NoSpace("Neuro-Lite") && forall k :: 0 <= k < |"Neuro-Lite"| ==> !IsQuote("Neuro-Lite"[k])
  {
  }

  lemma NeuroLitePhrase()
    ensures Phrase("Neuro-Lite") == "\"Neuro-Lite\"*"
  {
  }

  /** SQL `LIMIT ?`: a negative limit means no limit. */
  function Limited(rows: seq<Entry>, limit: int): (r: seq<Entry>)
    ensures limit >= 0 ==> |r| <= limit
    ensures |r| <= |rows| && r == rows[..|r|]
    ensures |r| == |rows| || |r| == limit
  {
    if limit < 0 || limit >= |rows| then
      assert rows[..|rows|] == rows;
      rows
    else
      rows[..limit]
  }

  /** One result dict built from one joined row. */
  function DocOf(e: Entry): Doc {
    Doc(e.question, e.answer, e.source)
  }

  /** What `search` returns for what the database hands back: [] on any
      error, otherwise one result per row kept by LIMIT, in ranking order. */
  function SearchResults(f: Fetch, limit: int): seq<Doc> {
    match f
    case Fetched(rows) =>
      var kept := Limited(rows, limit);
      seq(|kept|, k requires 0 <= k < |kept| => DocOf(kept[k]))
    case OperationalError => []
    case OtherError => []
  }

  /** Errors give no results; fetched rows give exactly as many results as
      the limit keeps (all of them when the limit is negative or at least the
      number of rows), and every result copies the question, answer and source
      of the row in the same ranking position. */
  lemma SearchResultsSpec(f: Fetch, limit: int)
    ensures var r := SearchResults(f, limit);
      (limit >= 0 ==> |r| <= limit)
      && (!f.Fetched? ==> r == [])
      && (f.Fetched? ==> |r| == (if 0 <= limit < |f.rows| then limit else |f.rows|))
      && (f.Fetched? ==> |r| <= |f.rows| && forall k :: 0 <= k < |r| ==>
            r[k].question == f.rows[k].question && r[k].answer == f.rows[k].answer && r[k].source == f.rows[k].source)
  {
  }

  /** A matcher that only hands back stored rows. */
  ghost predicate FromStore(matcher: Matcher)
  {
    forall es, q :: matcher(es, q).Fetched? ==> forall k :: 0 <= k < |matcher(es, q).rows| ==> matcher(es, q).rows[k] in es
  }

  /** `d` shows the question, answer and source of some stored entry. */
  ghost predicate ShowsStored(d: Doc, entries: seq<Entry>)
  {
    exists e :: e in entries && d == DocOf(e)
  }

  /** With such a matcher every result is the view of a stored entry. */
  lemma ResultsFromStore(matcher: Matcher, entries: seq<Entry>, query: string, limit: int)
    requires FromStore(matcher)
    ensures var r := SearchResults(matcher(entries, FtsQuery(query)), limit);
      forall k :: 0 <= k < |r| ==> ShowsStored(r[k], entries)
  {
    var f := matcher(entries, FtsQuery(query));
    var r := SearchResults(f, limit);
    forall k | 0 <= k < |r| ensures ShowsStored(r[k], entries) {
      assert f.Fetched?;
      var kept := Limited(f.rows, limit);
      assert r[k] == DocOf(kept[k]) && kept[k] == f.rows[k];
      var e := f.rows[k];
      assert e in entries && r[k] == DocOf(e);
    }
  }

  /** Ids increase strictly along the table and stay below the next id. */
  ghost predicate IdsIncreasing(entries: seq<Entry>, nextId: nat)
  {
    (forall i, j :: 0 <= i < j < |entries| ==> entries[i].id < entries[j].id)
    && (forall k :: 0 <= k < |entries| ==> entries[k].id < nextId)
  }

  /** The engine over its `knowledge` table. */
  class RagEngine {
    var entries: seq<Entry>
    var nextId: nat
    const matcher: Matcher

    ghost predicate Valid()
      reads this
    {
      IdsIncreasing(entries, nextId)
    }

    /** Opening the database: `CREATE TABLE IF NOT EXISTS` keeps an existing
        table's rows and its AUTOINCREMENT position, and a new database starts
        with `initial == []` and `next == 1`. */
    constructor(matcher: Matcher, initial: seq<Entry>, next: nat)
      requires IdsIncreasing(initial, next)
      ensures entries == initial && nextId == next && this.matcher == matcher
      ensures Valid()
    {
      entries := initial;
      nextId := next;
      this.matcher := matcher;
    }

    /** `insert`: adds one row when the database accepts it; a failure is
        logged and swallowed, so the table is unchanged and nothing is raised. */
    method Insert(question: string, answer: string, source: string := DefaultSource, accepted: bool := true)
      requires Valid()
      modifies this
      ensures Valid()
      ensures accepted ==> entries == old(entries) + [Entry(old(nextId), question, answer, source)] && nextId == old(nextId) + 1
      ensures !accepted ==> entries == old(entries) && nextId == old(nextId)
    {
      if accepted {
        entries := entries + [Entry(nextId, question, answer, source)];
        nextId := nextId + 1;
      }
    }

    /** `search`: builds the FTS query, lets the store rank, keeps `limit`
        rows and shapes each into a result; never raises. */
    method Search(query: string, limit: int := DefaultLimit) returns (results: seq<Doc>)
      ensures results == SearchResults(matcher(entries, FtsQuery(query)), limit)
    {
      var fts := FtsQuery(query);
      var fetch := matcher(entries, fts);
      results := [];
      match fetch {
        case OperationalError =>
          return [];
        case OtherError =>
        case Fetched(all) =>
          var rows := Limited(all, limit);
          var i := 0;
          while i < |rows|
            invariant 0 <= i <= |rows|
            invariant results == seq(i, k requires 0 <= k < i => DocOf(rows[k]))
          {
            results := results + [DocOf(rows[i])];
            i := i + 1;
          }
      }
    }
  }

  const NeuroLiteQuestion := "What is Neuro-Lite?"
  const NeuroLiteAnswer := "A lightweight empathic engine."

  /** The knowledge-base test: after inserting the Neuro-Lite entry into an
      empty store, searching "Neuro-Lite" finds it first whenever the store
      ranks it first for the prefix phrase. */
  method NeuroLiteScenario(matcher: Matcher) returns (results: seq<Doc>)
    requires matcher([NeuroLiteEntry], "\"Neuro-Lite\"*") == Fetched([NeuroLiteEntry])
    ensures |results| > 0 && Contains(results[0].answer, "empathic")
  {
    var rag := new RagEngine(matcher, [], 1);
    rag.Insert(NeuroLiteQuestion, NeuroLiteAnswer, "test");
    assert rag.entries == [NeuroLiteEntry];
    NeuroLiteQuery();
    results := rag.Search("Neuro-Lite");
    SearchOne(NeuroLiteEntry);
    EmpathicInAnswer();
  }

  const NeuroLiteEntry := Entry(1, NeuroLiteQuestion, NeuroLiteAnswer, "test")

  lemma SearchOne(e: Entry)
    ensures SearchResults(Fetched([e]), DefaultLimit) == [DocOf(e)]
  {
  }

  lemma EmpathicInAnswer()
    ensures Contains(NeuroLiteAnswer, "empathic")
  {
    assert OccursAt(NeuroLiteAnswer, "empathic", 14);
  }
}

=== FILE: text.dfy ===
/**
 * String operations of Python's `str` that the chat pipeline relies on:
 * `strip`, `lower`, `split()`, `split(sep)`, `sep.join`, and the `in` operator
 * on strings. Strings are sequences of code points, as in Python 3.
 */
module Text {

  /** A compiled regular expression, kept as data: its source text and whether
      it was compiled with `re.IGNORECASE`. The matching engine itself is not
      modelled; the modules that use one take it as a parameter. */
  datatype Regex = Regex(source: string, ignoreCase: bool)

  datatype Option<T> = None | Some(value: T)

  /** The code points Python's `str.isspace` (and so `strip` and `split()`) treats as whitespace. */
  predicate IsSpace(c: char) {
    var n := c as int;
    (9 <= n <= 13) || (28 <= n <= 32) || n == 0x85 || n == 0xA0 || n == 0x1680
    || (0x2000 <= n <= 0x200A) || n == 0x2028 || n == 0x2029 || n == 0x202F
    || n == 0x205F || n == 0x3000
  }

  predicate IsDigit(c: char) { '0' <= c <= '9' }

  predicate IsUpper(c: char) { 'A' <= c <= 'Z' }

  predicate IsLowerLetter(c: char) { 'a' <= c <= 'z' }

  predicate NoSpace(s: string) { forall k :: 0 <= k < |s| ==> !IsSpace(s[k]) }

  predicate AllSpace(s: string) { forall k :: 0 <= k < |s| ==> IsSpace(s[k]) }

  function LowerChar(c: char): char {
    if IsUpper(c) then (c as int + 32) as char else c
  }

  function UpperChar(c: char): char {
    if IsLowerLetter(c) then (c as int - 32) as char else c
  }

  /** `s.lower()` on the ASCII letters. */
  function Lower(s: string): (r: string)
    ensures |r| == |s|
    ensures forall k :: 0 <= k < |s| ==> r[k] == LowerChar(s[k])
  {
    seq(|s|, k requires 0 <= k < |s| => LowerChar(s[k]))
  }

  predicate StartsWith(s: string, p: string) {
    |p| <= |s| && s[..|p|] == p
  }

  /** `n` occurs in `s` starting at index `i`. */
  predicate OccursAt(s: string, n: string, i: nat) {
    i + |n| <= |s| && s[i..i + |n|] == n
  }

  /** Python's `n in s` for strings. */
  predicate Contains(s: string, n: string) {
    exists i :: 0 <= i <= |s| && OccursAt(s, n, i)
  }

  lemma ContainsAt(s: string, n: string, i: nat)
    requires OccursAt(s, n, i)
    ensures Contains(s, n)
  {
  }

  lemma StartsWithContains(s: string, p: string)
    requires StartsWith(s, p)
    ensures Contains(s, p)
  {
    ContainsAt(s, p, 0);
  }

  /** A needle with a character the haystack lacks does not occur in it. */
  lemma NotContainsByChar(s: string, n: string, k: nat)
    requires k < |n| && n[k] !in s
    ensures !Contains(s, n)
  {
    forall i: nat | i + |n| <= |s|
      ensures !OccursAt(s, n, i)
    {
      assert s[i..i + |n|][k] == s[i + k];
      assert s[i + k] in s;
    }
  }

  /** A needle with two neighbouring characters that never stand side by side
      in the haystack does not occur in it. */
  lemma NotContainsByPair(s: string, n: string, k: nat)
    requires k + 1 < |n|
    requires forall i :: 0 <= i < |s| - 1 ==> !(s[i] == n[k] && s[i + 1] == n[k + 1])
    ensures !Contains(s, n)
  {
    forall i: nat | i + |n| <= |s|
      ensures !OccursAt(s, n, i)
    {
      assert s[i..i + |n|][k] == s[i + k];
      assert s[i..i + |n|][k + 1] == s[i + k + 1];
    }
  }

  /** An occurrence cannot straddle a character the needle lacks. */
  lemma NotContainsAcross(a: string, c: char, b: string, n: string)
    requires c !in n && !Contains(a, n) && !Contains(b, n)
    ensures !Contains(a + [c] + b, n)
  {
    var s := a + [c] + b;
    forall i: nat | i + |n| <= |s|
      ensures !OccursAt(s, n, i)
    {
      if i + |n| <= |a| {
        assert s[i..i + |n|] == a[i..i + |n|];
        assert !OccursAt(a, n, i);
      } else if i > |a| {
        assert s[i..i + |n|] == b[i - |a| - 1..i - |a| - 1 + |n|];
        assert !OccursAt(b, n, i - |a| - 1);
      } else {
        assert s[i..i + |n|][|a| - i] == c;
      }
    }
  }

  lemma LowerAppend(a: string, b: string)
    ensures Lower(a + b) == Lower(a) + Lower(b)
  {
  }

  /** A lower-case letter occurs in `Lower(s)` only where it or its capital occurs in `s`. */
  lemma AbsentFromLower(s: string, c: char)
    requires c !in s && UpperChar(c) !in s
    ensures c !in Lower(s)
  {
    forall k | 0 <= k < |s|
      ensures Lower(s)[k] != c
    {
      assert s[k] in s;
    }
  }

  /** Number of whitespace characters that open `s`. */
  function LeadingSpaces(s: string): (n: nat)
    ensures n <= |s|
    ensures n < |s| ==> !IsSpace(s[n])
    decreases |s|
  {
    if s != [] && IsSpace(s[0]) then 1 + LeadingSpaces(s[1..]) else 0
  }

  /** Number of whitespace characters that close `s`. */
  function TrailingSpaces(s: string): (n: nat)
    ensures n <= |s|
    ensures n < |s| ==> !IsSpace(s[|s| - 1 - n])
    decreases |s|
  {
    if s != [] && IsSpace(s[|s| - 1]) then 1 + TrailingSpaces(s[..|s| - 1]) else 0
  }

  lemma {:induction false} LeadingSpacesAll(s: string)
    ensures AllSpace(s[..LeadingSpaces(s)])
    decreases |s|
  {
    if s != [] && IsSpace(s[0]) {
      var n := LeadingSpaces(s);
      LeadingSpacesAll(s[1..]);
      forall k | 0 <= k < n ensures IsSpace(s[..n][k]) {
        if k > 0 {
          assert s[..n][k] == s[1..][..n - 1][k - 1];
        }
      }
    }
  }

  lemma {:induction false} TrailingSpacesAll(s: string)
    ensures AllSpace(s[|s| - TrailingSpaces(s)..])
    decreases |s|
  {
    if s != [] && IsSpace(s[|s| - 1]) {
      var n := TrailingSpaces(s);
      var p := s[..|s| - 1];
      TrailingSpacesAll(p);
      var q := s[|s| - n..];
      forall k | 0 <= k < |q| ensures IsSpace(q[k]) {
        if k < n - 1 {
          assert q[k] == p[|p| - (n - 1)..][k];
        }
      }
    }
  }

  /** `s.lstrip()` */
  function TrimStart(s: string): string {
    s[LeadingSpaces(s)..]
  }

  /** `s.rstrip()` */
  function TrimEnd(s: string): string {
    s[..|s| - TrailingSpaces(s)]
  }

  /** `s.strip()` */
  function Strip(s: string): string {
    TrimEnd(TrimStart(s))
  }

  /** What `strip` returns is a slice of its input that neither starts nor ends
      with whitespace, and everything cut off on either side is whitespace. */
  lemma StripSpec(s: string)
    ensures var r := Strip(s);
      && (r == [] || (!IsSpace(r[0]) && !IsSpace(r[|r| - 1])))
      && exists i: nat :: i + |r| <= |s| && r == s[i..i + |r|]
                          && AllSpace(s[..i]) && AllSpace(s[i + |r|..])
  {
    StripEnds(s);
    StripSlice(s);
    var i := LeadingSpaces(s);
    var r := Strip(s);
    assert i + |r| <= |s| && r == s[i..i + |r|] && AllSpace(s[..i]) && AllSpace(s[i + |r|..]);
  }

  /** The slice `strip` keeps starts after the leading whitespace. */
  lemma StripSlice(s: string)
    ensures var i, r := LeadingSpaces(s), Strip(s);
      && i + |r| <= |s| && r == s[i..i + |r|]
      && AllSpace(s[..i]) && AllSpace(s[i + |r|..])
  {
    var i := LeadingSpaces(s);
    var t := s[i..];
    var r := Strip(s);
    assert r == t[..|t| - TrailingSpaces(t)];
    LeadingSpacesAll(s);
    SuffixTrimmed(s, i, r);
    SuffixTrimmedTail(s, i, r);
  }

  /** Right-trimming the suffix of `s` from `i` gives a slice of `s` from `i`. */
  lemma SuffixTrimmed(s: string, i: nat, r: string)
    requires i <= |s| && var t := s[i..]; r == t[..|t| - TrailingSpaces(t)]
    ensures i + |r| <= |s| && r == s[i..i + |r|]
  {
  }

  /** What right-trimming the suffix of `s` from `i` drops is whitespace. */
  lemma SuffixTrimmedTail(s: string, i: nat, r: string)
    requires i <= |s| && var t := s[i..]; r == t[..|t| - TrailingSpaces(t)]
    ensures AllSpace(s[i + |r|..])
  {
    var t := s[i..];
    var n := TrailingSpaces(t);
    TrailingSpacesAll(t);
    var u := s[i + |r|..];
    forall k | 0 <= k < |u| ensures IsSpace(u[k]) {
      assert u[k] == t[|t| - n..][k];
    }
  }

  /** Stripped text neither starts nor ends with whitespace. */
  lemma StripEnds(s: string)
    ensures var r := Strip(s);
      r == [] || (!IsSpace(r[0]) && !IsSpace(r[|r| - 1]))
  {
    var t := TrimStart(s);
    var r := TrimEnd(t);
    if r != [] {
      assert r[0] == t[0] == s[LeadingSpaces(s)];
      assert r[|r| - 1] == t[|t| - 1 - TrailingSpaces(t)];
    }
  }

  /** Stripping text that has no whitespace at either end changes nothing. */
  lemma StripUnchanged(s: string)
    requires s == [] || (!IsSpace(s[0]) && !IsSpace(s[|s| - 1]))
    ensures Strip(s) == s
  {
    assert LeadingSpaces(s) == 0;
    assert TrimStart(s) == s;
    assert TrailingSpaces(s) == 0;
  }

  /** `s.split(c)[0]`: the part of `s` before the first `c`, or all of `s`. */
  function BeforeFirst(s: string, c: char): (r: string)
    ensures c !in r
    ensures StartsWith(s, r)
    ensures |r| < |s| ==> s[|r|] == c
    decreases |s|
  {
    if s == [] then [] else if s[0] == c then [] else [s[0]] + BeforeFirst(s[1..], c)
  }

  /** The three properties of `BeforeFirst` determine it. */
  lemma BeforeFirstUnique(s: string, c: char, r: string)
    requires c !in r && StartsWith(s, r) && (|r| < |s| ==> s[|r|] == c)
    ensures r == BeforeFirst(s, c)
  {
  }

  lemma BeforeFirstCons(a: char, s: string, c: char)
    requires a != c
    ensures BeforeFirst([a] + s, c) == [a] + BeforeFirst(s, c)
  {
    assert ([a] + s)[1..] == s;
  }

  lemma BeforeFirstOfJoin(a: string, c: char, b: string)
    requires c !in a
    ensures BeforeFirst(a + [c] + b, c) == a
  {
    BeforeFirstUnique(a + [c] + b, c, a);
  }

  /** `s.replace(a, b)` for single characters. */
  function ReplaceChar(s: string, a: char, b: char): (r: string)
    ensures |r| == |s|
  {
    seq(|s|, k requires 0 <= k < |s| => if s[k] == a then b else s[k])
  }

  /** `sep.join(parts)` */
  function Join(parts: seq<string>, sep: string): string
    decreases |parts|
  {
    if parts == [] then "" else if |parts| == 1 then parts[0] else parts[0] + sep + Join(parts[1..], sep)
  }

  /** Length of the run of non-whitespace characters that starts `s`. */
  function RunLength(s: string): (n: nat)
    ensures n <= |s|
    ensures n < |s| ==> IsSpace(s[n])
    decreases |s|
  {
    if s == [] || IsSpace(s[0]) then 0 else 1 + RunLength(s[1..])
  }

  lemma {:induction false} RunLengthNoSpace(s: string)
    ensures NoSpace(s[..RunLength(s)])
    decreases |s|
  {
    if s != [] && !IsSpace(s[0]) {
      var n := RunLength(s);
      RunLengthNoSpace(s[1..]);
      forall k | 0 <= k < n ensures !IsSpace(s[..n][k]) {
        if k > 0 {
          assert s[..n][k] == s[1..][..n - 1][k - 1];
        }
      }
    }
  }

  /** `s.split()`: the maximal runs of non-whitespace characters, in order. */
  function Words(s: string): seq<string>
    decreases |s|
  {
    var t := TrimStart(s);
    if t == [] then []
    else
      assert t[0] == s[LeadingSpaces(s)];
      var n := RunLength(t);
      [t[..n]] + Words(t[n..])
  }

  /** Every piece of `split()` is a word: non-empty and free of whitespace. */
  lemma {:induction false} WordsAreWords(s: string)
    ensures AllWords(Words(s))
    decreases |s|
  {
    var t := TrimStart(s);
    if t != [] {
      assert t[0] == s[LeadingSpaces(s)];
      var n := RunLength(t);
      RunLengthNoSpace(t);
      WordsAreWords(t[n..]);
      var ws := Words(s);
      assert ws == [t[..n]] + Words(t[n..]);
      forall k | 0 <= k < |ws| ensures ws[k] != [] && NoSpace(ws[k]) {
        if k > 0 {
          assert ws[k] == Words(t[n..])[k - 1];
        }
      }
    }
  }

  /** `split()` finds no word exactly when the text is all whitespace. */
  lemma WordsEmpty(s: string)
    ensures Words(s) == [] <==> AllSpace(s)
  {
    var n := LeadingSpaces(s);
    if n == |s| {
      LeadingSpacesAll(s);
      assert s[..n] == s;
    } else {
      assert TrimStart(s) != [];
      assert !IsSpace(s[n]);
    }
  }

  lemma WordsAfterSpace(c: char, s: string)
    requires IsSpace(c)
    ensures Words([c] + s) == Words(s)
  {
    assert ([c] + s)[1..] == s;
    assert LeadingSpaces([c] + s) == 1 + LeadingSpaces(s);
    assert TrimStart([c] + s) == TrimStart(s);
  }

  /** A word followed by whitespace (or by nothing) splits off as the first word. */
  lemma WordsOfWordThen(w: string, tail: string)
    requires w != [] && NoSpace(w) && (tail == [] || IsSpace(tail[0]))
    ensures Words(w + tail) == [w] + Words(tail)
  {
    var s := w + tail;
    assert s[0] == w[0];
    assert LeadingSpaces(s) == 0;
    assert TrimStart(s) == s;
    RunLengthOfWord(w, tail);
    assert s[..|w|] == w;
    assert s[|w|..] == tail;
  }

  /** A character missing from the text is missing from each of its words. */
  lemma {:induction false} WordsWithout(s: string, c: char)
    requires c !in s
    ensures forall k :: 0 <= k < |Words(s)| ==> c !in Words(s)[k]
    decreases |s|
  {
    var t := TrimStart(s);
    if t != [] {
      var n := RunLength(t);
      assert t[0] == s[LeadingSpaces(s)];
      assert c !in t;
      assert c !in t[..n] && c !in t[n..];
      WordsWithout(t[n..], c);
      assert Words(s) == [t[..n]] + Words(t[n..]);
    }
  }

  /** Every element is a word: non-empty and free of whitespace. */
  predicate AllWords(ws: seq<string>)
  {
    forall k :: 0 <= k < |ws| ==> ws[k] != [] && NoSpace(ws[k])
  }

  /** Splitting words joined by single spaces gives the words back. */
  lemma {:induction false} WordsOfJoin(ws: seq<string>)
    requires AllWords(ws)
    ensures Words(Join(ws, " ")) == ws
    decreases |ws|
  {
    if ws == [] {
    } else if |ws| == 1 {
      WordsOfWordThen(ws[0], "");
      assert ws[0] + "" == ws[0];
    } else {
      var rest := Join(ws[1..], " ");
      var tail := [' '] + rest;
      JoinCons(ws, " ");
      assert Join(ws, " ") == ws[0] + tail;
      WordsOfWordThen(ws[0], tail);
      WordsAfterSpace(' ', rest);
      assert AllWords(ws[1..]) by {
        forall k | 0 <= k < |ws[1..]| ensures ws[1..][k] != [] && NoSpace(ws[1..][k]) {
          assert ws[1..][k] == ws[k + 1];
        }
      }
      WordsOfJoin(ws[1..]);
      assert Words(Join(ws, " ")) == [ws[0]] + ws[1..];
      assert [ws[0]] + ws[1..] == ws;
    }
  }

  lemma JoinCons(parts: seq<string>, sep: string)
    requires |parts| > 1
    ensures Join(parts, sep) == parts[0] + (sep + Join(parts[1..], sep))
  {
  }

  lemma RunLengthOfWord(w: string, tail: string)
    requires NoSpace(w) && (tail == [] || IsSpace(tail[0]))
    ensures RunLength(w + tail) == |w|
    decreases |w|
  {
    if w != [] {
      assert (w + tail)[1..] == w[1..] + tail;
      RunLengthOfWord(w[1..], tail);
    }
  }

  /** The first index at or after `i` where `sep` occurs in `s`, or -1. */
  function IndexFrom(s: string, sep: string, i: nat): (r: int)
    requires sep != [] && i <= |s|
    ensures r == -1 || (i <= r && OccursAt(s, sep, r))
    decreases |s| - i
  {
    if i + |sep| > |s| then -1
    else if OccursAt(s, sep, i) then i
    else IndexFrom(s, sep, i + 1)
  }

  /** `IndexFrom` skips no occurrence. */
  lemma {:induction false} IndexFromFirst(s: string, sep: string, i: nat, j: nat)
    requires sep != [] && i <= |s| && i <= j
    requires var r := IndexFrom(s, sep, i); r == -1 || j < r
    ensures !OccursAt(s, sep, j)
    decreases |s| - i
  {
    if i + |sep| <= |s| && !OccursAt(s, sep, i) && i < j {
      IndexFromFirst(s, sep, i + 1, j);
    }
  }

  /** The first occurrence at or after `i` is what `IndexFrom` finds. */
  lemma {:induction false} IndexFromAt(s: string, sep: string, i: nat, r: nat)
    requires sep != [] && i <= r && OccursAt(s, sep, r)
    requires forall j: nat :: i <= j < r ==> !OccursAt(s, sep, j)
    ensures IndexFrom(s, sep, i) == r
    decreases r - i
  {
    if i < r {
      IndexFromAt(s, sep, i + 1, r);
    }
  }

  /** The separator search of `split(sep)`: the first index where `sep` occurs, or -1. */
  function IndexOf(s: string, sep: string): (r: int)
    requires sep != []
    ensures r == -1 || (0 <= r && OccursAt(s, sep, r))
  {
    IndexFrom(s, sep, 0)
  }

  /** The search gives -1 exactly when the separator does not occur, and otherwise
      the first occurrence. */
  lemma IndexOfSpec(s: string, sep: string)
    requires sep != []
    ensures var r := IndexOf(s, sep);
      (r == -1 <==> !Contains(s, sep))
      && forall j: nat :: r != -1 && j < r ==> !OccursAt(s, sep, j)
  {
    var r := IndexOf(s, sep);
    forall j: nat | r == -1 || j < r ensures !OccursAt(s, sep, j) {
      IndexFromFirst(s, sep, 0, j);
    }
    if r != -1 {
      ContainsAt(s, sep, r);
    }
  }

  /** `s.split(sep)` for a non-empty separator. */
  function SplitOn(s: string, sep: string): (parts: seq<string>)
    requires sep != []
    ensures |parts| >= 1
    decreases |s|
  {
    var i := IndexOf(s, sep);
    if i < 0 then [s] else [s[..i]] + SplitOn(s[i + |sep|..], sep)
  }

  /** Splitting at a single character peels off the text before its first occurrence. */
  lemma SplitOnCharCons(a: string, c: char, b: string)
    requires c !in a
    ensures SplitOn(a + [c] + b, [c]) == [a] + SplitOn(b, [c])
  {
    var s := a + [c] + b;
    forall j: nat | j < |a| ensures !OccursAt(s, [c], j) {
      assert s[j] == a[j];
      assert s[j..j + 1][0] == s[j];
    }
    assert s[|a|..|a| + 1] == [c];
    IndexFromAt(s, [c], 0, |a|);
    assert s[..|a|] == a && s[|a| + 1..] == b;
  }

  /** Joining the pieces of a split with the same separator restores the text. */
  lemma {:induction false} SplitOnJoin(s: string, sep: string)
    requires sep != []
    ensures Join(SplitOn(s, sep), sep) == s
    decreases |s|
  {
    var i := IndexOf(s, sep);
    if i >= 0 {
      var rest := s[i + |sep|..];
      var parts := SplitOn(s, sep);
      assert parts == [s[..i]] + SplitOn(rest, sep);
      SplitOnJoin(rest, sep);
      SplitHead(s, sep, i);
      assert parts[1..] == SplitOn(rest, sep);
      JoinCons(parts, sep);
      assert Join(parts, sep) == s[..i] + (sep + rest);
    }
  }

  /** No piece of a split holds the separator. */
  lemma {:induction false} SplitOnPieces(s: string, sep: string)
    requires sep != []
    ensures forall k :: 0 <= k < |SplitOn(s, sep)| ==> !Contains(SplitOn(s, sep)[k], sep)
    decreases |s|
  {
    var i := IndexOf(s, sep);
    if i < 0 {
      IndexOfSpec(s, sep);
      assert SplitOn(s, sep) == [s];
    } else {
      var rest := s[i + |sep|..];
      var parts := SplitOn(s, sep);
      assert parts == [s[..i]] + SplitOn(rest, sep);
      SplitOnPieces(rest, sep);
      SplitHead(s, sep, i);
      forall k | 0 <= k < |parts| ensures !Contains(parts[k], sep) {
        if k > 0 {
          assert parts[k] == SplitOn(rest, sep)[k - 1];
        }
      }
    }
  }

  /** Before the first occurrence of the separator there is no occurrence of it. */
  lemma SplitHead(s: string, sep: string, i: nat)
    requires sep != [] && i == IndexOf(s, sep)
    ensures s == s[..i] + (sep + s[i + |sep|..])
    ensures !Contains(s[..i], sep)
  {
    IndexOfSpec(s, sep);
    forall j: nat | j + |sep| <= i
      ensures !OccursAt(s[..i], sep, j)
    {
      assert s[..i][j..j + |sep|] == s[j..j + |sep|];
      assert !OccursAt(s, sep, j);
    }
  }
}

=== FILE: validation.dfy ===
/** The offline ingestion validator: every block of a knowledge file is checked
    for personal data, then for abusive keywords, then for being a repeat of
    something already stored or accepted, in that order. */
module Validation {
  import opened Text

  /** `pattern.search(text)` finds a match. */
  type Searcher = (Regex, string) -> bool

  /** The MD5 hex digest of a text, taken as an opaque function. */
  type Hasher = string -> string

  const EmailPattern := @"\b[\w\.-]+@[\w\.-]+\.\w{2,4}\b"
  const PhonePattern := @"\b(?:\+?(\d{1,3}))?[-. (]*(\d{3})[-. )]*(\d{3})[-. ]*(\d{4})\b"
  const Ipv4Pattern := @"\b(?:[0-9]{1,3}\.){3}[0-9]{1,3}\b"

  /** The personal-data expressions, in the order they are tried, compiled without flags. */
  const PiiPatterns: seq<Regex> := [Regex(EmailPattern, false), Regex(PhonePattern, false), Regex(Ipv4Pattern, false)]

  const ToxicKeywords: seq<string> := ["hate", "kill", "attack", "illegal", "fraud", "scam"]

  const PiiReason := "PII Detected"
  const DuplicateReason := "Duplicate entry"
  const ValidReason := "Valid"

  function ToxicReason(word: string): string {
    "Toxic content (" + word + ") detected"
  }

  /** `scan_file` cuts the file into blocks at every blank line. */
  const BlockSeparator := "\n\n"

  /** Some expression finds a match in `text`. */
  predicate AnyMatch(patterns: seq<Regex>, text: string, search: Searcher) {
    exists k :: 0 <= k < |patterns| && search(patterns[k], text)
  }

  /** The first word of `words` that occurs in `text`, if any. */
  function FirstIn(words: seq<string>, text: string): Option<string>
    decreases |words|
  {
    if words == [] then None
    else if Contains(text, words[0]) then Some(words[0])
    else FirstIn(words[1..], text)
  }

  /** `words[k]` occurs in `text` and no earlier word does. */
  predicate FirstHit(words: seq<string>, text: string, k: int) {
    && 0 <= k < |words| && Contains(text, words[k])
    && forall j :: 0 <= j < k ==> !Contains(text, words[j])
  }

  /** No word of `words` occurs in `text`. */
  predicate NoneIn(words: seq<string>, text: string) {
    forall k :: 0 <= k < |words| ==> !Contains(text, words[k])
  }

  /** `FirstIn` finds nothing exactly when no word occurs, and otherwise the
      first word in list order that occurs. */
  lemma {:induction false} FirstInSpec(words: seq<string>, text: string)
    ensures FirstIn(words, text) == None <==> NoneIn(words, text)
    ensures FirstIn(words, text) != None ==>
      exists k :: FirstHit(words, text, k) && words[k] == FirstIn(words, text).value
    decreases |words|
  {
    if words != [] {
      if Contains(text, words[0]) {
        assert FirstHit(words, text, 0);
      } else {
        var rest := words[1..];
        FirstInSpec(rest, text);
        if FirstIn(rest, text) != None {
          var k :| FirstHit(rest, text, k) && rest[k] == FirstIn(rest, text).value;
          assert FirstHit(words, text, k + 1) by {
            forall j | 0 <= j < k + 1 ensures !Contains(text, words[j]) {
              if j > 0 {
                assert words[j] == rest[j - 1];
              }
            }
          }
        } else {
          forall k | 0 <= k < |words| ensures !Contains(text, words[k]) {
            if k > 0 {
              assert words[k] == rest[k - 1];
            }
          }
        }
      }
    }
  }

  /** What `validate_text` returns for `text` when the stored hashes are `hashes`. */
  function Validate(text: string, hashes: set<string>, search: Searcher, hash: Hasher): (bool, string)
  {
    if AnyMatch(PiiPatterns, text, search) then (false, PiiReason)
    else match FirstIn(ToxicKeywords, Lower(text))
      case Some(w) => (false, ToxicReason(w))
      case None => if hash(text) in hashes then (false, DuplicateReason) else (true, ValidReason)
  }

  /** The toxic keyword `w` is the first one, in list order, that the lowered text contains. */
  ghost predicate FirstToxic(text: string, w: string) {
    exists k :: FirstHit(ToxicKeywords, Lower(text), k) && ToxicKeywords[k] == w
  }

  /** A text is accepted exactly when it passes all three checks; a rejection
      names the first check that failed, and the toxic one names the first
      keyword found. */
  lemma ValidateSpec(text: string, hashes: set<string>, search: Searcher, hash: Hasher)
    ensures var r := Validate(text, hashes, search, hash);
      r.0 <==> !AnyMatch(PiiPatterns, text, search) && NoneIn(ToxicKeywords, Lower(text)) && hash(text) !in hashes
    ensures var r := Validate(text, hashes, search, hash);
      && (r.0 ==> r.1 == ValidReason)
      && (AnyMatch(PiiPatterns, text, search) ==> r == (false, PiiReason))
      && (!AnyMatch(PiiPatterns, text, search) && NoneIn(ToxicKeywords, Lower(text)) && hash(text) in hashes ==>
            r == (false, DuplicateReason))
    ensures var r := Validate(text, hashes, search, hash);
      !AnyMatch(PiiPatterns, text, search) && !NoneIn(ToxicKeywords, Lower(text)) ==>
        !r.0 && exists w :: FirstToxic(text, w) && r.1 == ToxicReason(w)
  {
    FirstInSpec(ToxicKeywords, Lower(text));
    if !AnyMatch(PiiPatterns, text, search) && !NoneIn(ToxicKeywords, Lower(text)) {
      var w := FirstIn(ToxicKeywords, Lower(text)).value;
      assert FirstToxic(text, w);
    }
  }

  /** Whether a text is accepted does not depend on the stored hashes except
      through its own hash. */
  lemma ValidateOnlyHashMatters(text: string, h1: set<string>, h2: set<string>, search: Searcher, hash: Hasher)
    requires hash(text) in h1 <==> hash(text) in h2
    ensures Validate(text, h1, search, hash) == Validate(text, h2, search, hash)
  {
  }

  /** The hashes and the count of accepted blocks after scanning `blocks` in
      order, starting from the hashes `hashes`. */
  function Scan(blocks: seq<string>, hashes: set<string>, search: Searcher, hash: Hasher): (r: (set<string>, nat))
    ensures r.1 <= |blocks|
    decreases |blocks|
  {
    if blocks == [] then (hashes, 0)
    else
      var prev := Scan(blocks[..|blocks| - 1], hashes, search, hash);
      var b := blocks[|blocks| - 1];
      if Validate(b, prev.0, search, hash).0 then (prev.0 + {hash(b)}, prev.1 + 1) else prev
  }

  /** Block `j` is accepted when the scan reaches it. */
  predicate Accepted(blocks: seq<string>, hashes: set<string>, search: Searcher, hash: Hasher, j: int)
    requires 0 <= j < |blocks|
  {
    Validate(blocks[j], Scan(blocks[..j], hashes, search, hash).0, search, hash).0
  }

  /** Scanning one more block only adds hashes: the hash of that block when it is accepted. */
  lemma ScanStep(blocks: seq<string>, hashes: set<string>, search: Searcher, hash: Hasher, i: nat)
    requires i < |blocks|
    ensures var before, after := Scan(blocks[..i], hashes, search, hash), Scan(blocks[..i + 1], hashes, search, hash);
      after == (if Accepted(blocks, hashes, search, hash, i) then (before.0 + {hash(blocks[i])}, before.1 + 1) else before)
  {
    assert blocks[..i + 1][..i] == blocks[..i];
    assert blocks[..i + 1][i] == blocks[i];
  }

  /** The scan never loses a hash it started with. */
  lemma {:induction false} ScanKeeps(blocks: seq<string>, hashes: set<string>, search: Searcher, hash: Hasher, i: nat)
    requires i <= |blocks|
    ensures hashes <= Scan(blocks[..i], hashes, search, hash).0
    decreases i
  {
    if i == 0 {
      assert blocks[..0] == [];
    } else {
      ScanKeeps(blocks, hashes, search, hash, i - 1);
      ScanStep(blocks, hashes, search, hash, i - 1);
    }
  }

  /** The hash set only grows as the scan goes on. */
  lemma {:induction false} ScanGrows(blocks: seq<string>, hashes: set<string>, search: Searcher, hash: Hasher, i: nat, j: nat)
    requires i <= j <= |blocks|
    ensures Scan(blocks[..i], hashes, search, hash).0 <= Scan(blocks[..j], hashes, search, hash).0
    decreases j
  {
    if i < j {
      ScanGrows(blocks, hashes, search, hash, i, j - 1);
      ScanStep(blocks, hashes, search, hash, j - 1);
    }
  }

  /** A block identical to an earlier block of the same scan is rejected:
      either the earlier copy failed a check the later one fails too, or its
      hash was already known, or it was accepted and its hash recorded. */
  lemma RepeatRejected(blocks: seq<string>, hashes: set<string>, search: Searcher, hash: Hasher, i: nat, j: nat)
    requires i < j < |blocks| && blocks[i] == blocks[j]
    ensures !Accepted(blocks, hashes, search, hash, j)
  {
    var b := blocks[i];
    ScanStep(blocks, hashes, search, hash, i);
    ScanGrows(blocks, hashes, search, hash, i + 1, j);
    var hi := Scan(blocks[..i], hashes, search, hash).0;
    var hj := Scan(blocks[..j], hashes, search, hash).0;
    ValidateSpec(b, hi, search, hash);
    ValidateSpec(b, hj, search, hash);
  }

  /** The indices of the blocks the scan accepts. */
  ghost function AcceptedIndices(blocks: seq<string>, hashes: set<string>, search: Searcher, hash: Hasher): set<int>
  {
    set j | 0 <= j < |blocks| && Accepted(blocks, hashes, search, hash, j)
  }

  /** A block's acceptance depends only on the blocks before it. */
  lemma AcceptedInPrefix(blocks: seq<string>, hashes: set<string>, search: Searcher, hash: Hasher, n: nat, j: nat)
    requires j < n <= |blocks|
    ensures Accepted(blocks[..n], hashes, search, hash, j) == Accepted(blocks, hashes, search, hash, j)
  {
    assert blocks[..n][..j] == blocks[..j];
    assert blocks[..n][j] == blocks[j];
  }

  /** The accepted blocks of a longer scan are those of the shorter one, and the last block if it is accepted. */
  lemma AcceptedIndicesSnoc(blocks: seq<string>, hashes: set<string>, search: Searcher, hash: Hasher)
    requires blocks != []
    ensures var n := |blocks| - 1;
      AcceptedIndices(blocks, hashes, search, hash) ==
        AcceptedIndices(blocks[..n], hashes, search, hash) + (if Accepted(blocks, hashes, search, hash, n) then {n} else {})
  {
    var n := |blocks| - 1;
    forall j | 0 <= j < n ensures Accepted(blocks[..n], hashes, search, hash, j) == Accepted(blocks, hashes, search, hash, j) {
      AcceptedInPrefix(blocks, hashes, search, hash, n, j);
    }
  }

  /** The count the scan reports is the number of accepted blocks. */
  lemma {:induction false} ScanCount(blocks: seq<string>, hashes: set<string>, search: Searcher, hash: Hasher)
    ensures Scan(blocks, hashes, search, hash).1 == |AcceptedIndices(blocks, hashes, search, hash)|
    decreases |blocks|
  {
    if blocks == [] {
      assert AcceptedIndices(blocks, hashes, search, hash) == {};
    } else {
      var n := |blocks| - 1;
      ScanCount(blocks[..n], hashes, search, hash);
      AcceptedIndicesSnoc(blocks, hashes, search, hash);
      ScanStep(blocks, hashes, search, hash, n);
      assert blocks[..n + 1] == blocks;
      assert n !in AcceptedIndices(blocks[..n], hashes, search, hash);
    }
  }

  /** The hashes of the blocks at the indices `js`. */
  ghost function HashesAt(blocks: seq<string>, hash: Hasher, js: set<int>): set<string>
    requires forall j :: j in js ==> 0 <= j < |blocks|
  {
    set j | j in js :: hash(blocks[j])
  }

  lemma HashesAtSnoc(blocks: seq<string>, hash: Hasher, js: set<int>, n: nat)
    requires n < |blocks| && forall j :: j in js ==> 0 <= j < n
    ensures HashesAt(blocks, hash, js) == HashesAt(blocks[..n], hash, js)
    ensures HashesAt(blocks, hash, js + {n}) == HashesAt(blocks[..n], hash, js) + {hash(blocks[n])}
  {
    forall j | j in js ensures blocks[..n][j] == blocks[j] {}
  }

  /** The hashes the scan ends with are the starting ones plus those of the accepted blocks. */
  lemma {:induction false} ScanHashes(blocks: seq<string>, hashes: set<string>, search: Searcher, hash: Hasher)
    ensures Scan(blocks, hashes, search, hash).0 == hashes + HashesAt(blocks, hash, AcceptedIndices(blocks, hashes, search, hash))
    decreases |blocks|
  {
    if blocks == [] {
      assert AcceptedIndices(blocks, hashes, search, hash) == {};
    } else {
      var n := |blocks| - 1;
      var acc := AcceptedIndices(blocks[..n], hashes, search, hash);
      ScanHashes(blocks[..n], hashes, search, hash);
      AcceptedIndicesSnoc(blocks, hashes, search, hash);
      ScanStep(blocks, hashes, search, hash, n);
      assert blocks[..n + 1] == blocks;
      HashesAtSnoc(blocks, hash, acc, n);
    }
  }

  const EmailMessage := "My email is test@example.com"
  const HateMessage := "I hate this product"
  const RestartQuestion := "How do I restart?"

  /** A message with an e-mail address, which the first expression finds, is
      rejected as personal data whatever else it holds. */
  lemma EmailIsPii(search: Searcher, hash: Hasher, hashes: set<string>)
    requires search(PiiPatterns[0], EmailMessage)
    ensures var r := Validate(EmailMessage, hashes, search, hash); !r.0 && Contains(r.1, "PII")
  {
    assert AnyMatch(PiiPatterns, EmailMessage, search) by {
      assert 0 < |PiiPatterns|;
    }
    assert OccursAt(PiiReason, "PII", 0);
  }

  /** A message without personal data that says "hate" is rejected for that
      word, the first keyword of the list. */
  lemma HateIsToxic(search: Searcher, hash: Hasher, hashes: set<string>)
    requires forall k :: 0 <= k < |PiiPatterns| ==> !search(PiiPatterns[k], HateMessage)
    ensures var r := Validate(HateMessage, hashes, search, hash);
      r == (false, ToxicReason("hate")) && Contains(r.1, "Toxic")
  {
    var l := Lower(HateMessage);
    assert HateMessage[2..6] == "hate";
    assert l[2..6] == "hate" by {
      forall k | 2 <= k < 6 ensures l[k] == HateMessage[k] {
        assert !IsUpper(HateMessage[k]);
      }
    }
    assert OccursAt(l, "hate", 2);
    assert FirstIn(ToxicKeywords, l) == Some("hate");
    assert OccursAt(ToxicReason("hate"), "Toxic", 0);
  }

  /** A lower-case pair occurs in the lowered text only where the same pair,
      in either case, occurs in the text. */
  lemma LowerPairAbsent(s: string, x: char, y: char)
    requires IsLowerLetter(x) && IsLowerLetter(y)
    requires forall i :: 0 <= i < |s| - 1 ==> !((s[i] == x || s[i] == UpperChar(x)) && (s[i + 1] == y || s[i + 1] == UpperChar(y)))
    ensures forall i :: 0 <= i < |s| - 1 ==> !(Lower(s)[i] == x && Lower(s)[i + 1] == y)
  {
  }

  /** `c` is missing from `s` in both cases. */
  predicate Lacks(s: string, c: char) {
    forall k :: 0 <= k < |s| ==> s[k] != c && s[k] != UpperChar(c)
  }

  lemma LacksAbsent(s: string, c: char)
    requires IsLowerLetter(c) && Lacks(s, c)
    ensures c !in Lower(s)
  {
    AbsentFromLower(s, c);
  }

  lemma RestartLacksK() ensures Lacks(RestartQuestion, 'k') {}
  lemma RestartLacksL() ensures Lacks(RestartQuestion, 'l') {}
  lemma RestartLacksF() ensures Lacks(RestartQuestion, 'f') {}
  lemma RestartLacksC() ensures Lacks(RestartQuestion, 'c') {}

  lemma RestartLacksHa()
    ensures forall i :: 0 <= i < |RestartQuestion| - 1 ==>
      !((RestartQuestion[i] == 'h' || RestartQuestion[i] == 'H') && (RestartQuestion[i + 1] == 'a' || RestartQuestion[i + 1] == 'A'))
  {
  }

  /** A plain question without personal data, keywords or a known hash is accepted. */
  lemma RestartIsValid(search: Searcher, hash: Hasher, hashes: set<string>)
    requires forall k :: 0 <= k < |PiiPatterns| ==> !search(PiiPatterns[k], RestartQuestion)
    requires hash(RestartQuestion) !in hashes
    ensures Validate(RestartQuestion, hashes, search, hash) == (true, ValidReason)
  {
    var l := Lower(RestartQuestion);
    RestartLacksK(); LacksAbsent(RestartQuestion, 'k');
    RestartLacksL(); LacksAbsent(RestartQuestion, 'l');
    RestartLacksF(); LacksAbsent(RestartQuestion, 'f');
    RestartLacksC(); LacksAbsent(RestartQuestion, 'c');
    RestartLacksHa();
    LowerPairAbsent(RestartQuestion, 'h', 'a');
    NotContainsByPair(l, "hate", 0);
    NotContainsByChar(l, "kill", 0);
    NotContainsByChar(l, "attack", 4);
    NotContainsByChar(l, "illegal", 1);
    NotContainsByChar(l, "fraud", 0);
    NotContainsByChar(l, "scam", 1);
    FirstInSpec(ToxicKeywords, l);
  }

  /** The validator: the hashes of what is stored or accepted, the expression
      engine and the hash function. */
  class DataValidator {
    var hashSet: set<string>
    const search: Searcher
    const hash: Hasher

    /** `hash_set` starts as the hashes of the entries already stored, given here. */
    constructor (existing: set<string>, search: Searcher, hash: Hasher)
      ensures hashSet == existing && this.search == search && this.hash == hash
    {
      hashSet := existing;
      this.search := search;
      this.hash := hash;
    }

    /** Tries the personal-data expressions, then the toxic keywords on the
        lowered text, then the known hashes; it changes nothing. */
    method ValidateText(text: string) returns (valid: bool, reason: string)
      ensures (valid, reason) == Validate(text, hashSet, search, hash)
    {
      var k := 0;
      while k < |PiiPatterns|
        invariant 0 <= k <= |PiiPatterns|
        invariant forall j :: 0 <= j < k ==> !search(PiiPatterns[j], text)
      {
        if search(PiiPatterns[k], text) {
          return false, PiiReason;
        }
        k := k + 1;
      }
      var lowered := Lower(text);
      var i := 0;
      while i < |ToxicKeywords|
        invariant 0 <= i <= |ToxicKeywords|
        invariant FirstIn(ToxicKeywords, lowered) == FirstIn(ToxicKeywords[i..], lowered)
      {
        if Contains(lowered, ToxicKeywords[i]) {
          return false, ToxicReason(ToxicKeywords[i]);
        }
        assert ToxicKeywords[i..][1..] == ToxicKeywords[i + 1..];
        i := i + 1;
      }
      if hash(text) in hashSet {
        return false, DuplicateReason;
      }
      return true, ValidReason;
    }

    /** The per-block loop of `scan_file`: each accepted block's hash is
        recorded before the next block is checked. Returns the valid and the
        rejected counts. */
    method ScanContent(content: string) returns (validCount: nat, rejected: nat)
      modifies this
      ensures var blocks := SplitOn(content, BlockSeparator);
        && (hashSet, validCount) == Scan(blocks, old(hashSet), search, hash)
        && validCount + rejected == |blocks|
    {
      var blocks := SplitOn(content, BlockSeparator);
      validCount := 0;
      var i := 0;
      while i < |blocks|
        invariant 0 <= i <= |blocks|
        invariant (hashSet, validCount) == Scan(blocks[..i], old(hashSet), search, hash)
      {
        var valid, reason := ValidateText(blocks[i]);
        ScanStep(blocks, old(hashSet), search, hash, i);
        if valid {
          hashSet := hashSet + {hash(blocks[i])};
          validCount := validCount + 1;
        }
        i := i + 1;
      }
      assert blocks[..|blocks|] == blocks;
      rejected := |blocks| - validCount;
    }
  }
}
